=== FILE: README.md ===
# Haneul CCM Portfolio — a Dafny model of its core

The repository is a pair of Streamlit apps for the Haneul CCM channel.
`youtube_portfolio.py` is the public portfolio page. It asks the video-hosting
Data API for the channel, for the channel's videos (paginated search) and for
their details (in batches of 50 ids). It splits the videos into Shorts
(60 seconds or less) and regular videos. It removes the episodes of the podcast
playlist, filters by the search box and sorts by the chosen order. When the API
gives nothing, it falls back on a local JSON document. `data_manager.py` is
the admin tool that edits that document. It can add a video, delete videos by
title and save the channel form. It also shows a video table, view and like
totals and the five latest uploads.

The model has ten modules:

- `Wrappers` (wrappers.dfy): `Option`.
- `Text` (text.dfy): Python's `str(n)`, `f"{n:,}"`, `f"{n:02d}"`, `int(s)`, `str.replace(c, "")`, `lower`, `in` and string ordering, over `seq<char>`.
- `Seqs` (seqs.dfy): list-comprehension filtering and flattening.
- `Sorting` (sorting.dfy): Python's stable `sort(key=…, reverse=…)`, as a stable insertion sort over integer or string keys.
- `Upstream` (upstream.dfy): `get_channel_info`, the pagination loop of `get_all_videos` and `get_playlist_videos`, and `get_video_details`.
- `Formatters` (formatters.dfy): `format_duration`, `format_stat` and `format_date`.
- `Catalog` (catalog.dfy): lines 395–446 of `main` — the split, the podcast exclusion, the search and the sort.
- `ChannelData` (channel_data.dfy): the JSON document and `load_channel_data`, which is identical in both apps.
- `DataManager` (data_manager.dfy): the admin tool's edits and derived figures.
- `Portfolio` (portfolio.dfy): the page's header selection and video-section composition.

The network is a script of responses. `Answered(status, body)` is an HTTP
response whose body is already decoded. `Raised` is an exception from the HTTP
library or from decoding. Request n of an operation receives response n, and a
request beyond the script behaves as `Raised`. Clock readings (`now`) and the
outcome of `strptime` are parameters.

The portfolio page queries the API on every render and never writes
`channel_data.json`; only the data manager writes it. There is no refresh
schedule, staleness check or commit guard in either program.

## Model

| member | source | states |
|---|---|---|
| Text.PyIntOfIntToString | youtube_portfolio.py:218-222 | `int(str(i)) == i` for every integer, negative ones included (the model has no limit on the number of digits; see Left out) |
| Text.GroupUngroups | youtube_portfolio.py:220 | removing the commas from `f"{n:,}"` gives `str(n)` |
| Text.PyInt | youtube_portfolio.py:220 | Python's `int` on text: surrounding whitespace, an optional sign, digits with single underscores between them, `None` for anything else; PyIntOfIntToString, PyIntOfDigits and Formatters.GroupedInputIsNotANumber characterise it |
| Text.GroupInt | youtube_portfolio.py:220 | `f"{i:,}"`: a minus sign for negatives, then the magnitude in groups of three digits; GroupUngroups and Formatters.GroupIntShape characterise it |
| Text.CanonicalDecimal | youtube_portfolio.py:220 | a digit string with no leading zero is exactly `str` of its value (the inverse of `DecimalValue`) |
| Text.DecimalValue | data_manager.py:197 | reading back the digits of `str(n)` gives `n` |
| Seqs.Filter | data_manager.py:177 | the comprehension keeps exactly the elements satisfying the condition, each as often as in the input, in order |
| Seqs.FilterAppend | youtube_portfolio.py:429-430 | filtering distributes over concatenation |
| Seqs.FilterCount | youtube_portfolio.py:429-435 | the number of copies of `x` that survive a filter is all of them when `x` satisfies the condition and none otherwise |
| Sorting.Sort | youtube_portfolio.py:438-446 | the sorted list is a permutation of the input |
| Sorting.SortIsSorted | youtube_portfolio.py:438-446 | no element of the sorted list must come before an earlier one, ascending or with `reverse=True` |
| Sorting.SortIsStable | youtube_portfolio.py:438-446 | elements with equal keys keep their input order, also with `reverse=True` |
| Sorting.WithKeyPrefix | data_manager.py:210 | the elements of a prefix carrying a key are a prefix of the elements of the whole carrying it, so cutting a sorted list keeps its stability |
| Upstream.GetChannelInfo | youtube_portfolio.py:139-159 | a channel is returned exactly when the reply is a 200 with a non-empty `items`, and it is the first item; an error status or an exception gives `None` |
| Upstream.FetchAllPages | youtube_portfolio.py:224-252 | the loop as written (request, stop on non-200, extend, follow `nextPageToken`) returns what the recursive account `Paginate` defines |
| Upstream.Paginate | youtube_portfolio.py:224-279 | the recursive account of the pagination loops of `get_all_videos` and `get_playlist_videos`; PaginationOutcome states its four endings and FetchAllPages shows the loop computes it |
| Upstream.PaginationOutcome | youtube_portfolio.py:238-252 | a non-200 status keeps the items of the pages before it; a last page without a token keeps every page's items; an exception discards everything gathered |
| Upstream.ThreePages | youtube_portfolio.py:254-279 | three linked pages of 50, 50 and 12 items give all 112 in order |
| Upstream.Batches | youtube_portfolio.py:188-189 | the batches concatenate back to the id list; each holds 1 to 50 ids and all but the last hold 50 |
| Upstream.BatchCount | youtube_portfolio.py:188 | one detail request per started group of 50 ids |
| Upstream.GetVideoDetails | youtube_portfolio.py:182-208 | the loop requests exactly the batches, requests nothing for an empty id list, and builds the map `VideoDetails` defines |
| Upstream.DetailsFromSuccessfulBatches | youtube_portfolio.py:196-200 | the map's keys are the ids of the items of all successful batch replies, and each id maps to the last item carrying it |
| Upstream.RecordLastWins | youtube_portfolio.py:199-200 | recording items adds exactly their ids, a later item overwrites an earlier one, and other entries are kept |
| Upstream.Record | youtube_portfolio.py:200-201 | stores items one by one under their ids, as the dictionary assignment does; RecordLastWins characterises it |
| Upstream.VideoDetails | youtube_portfolio.py:182-208 | the detail map built from the batch replies; DetailsFromSuccessfulBatches, FailedBatchIsSkipped and SuccessfulBatchIsRecorded characterise it |
| Upstream.FailedBatchIsSkipped | youtube_portfolio.py:201-206 | a failed batch contributes nothing, and the later batches are still requested |
| Upstream.SuccessfulBatchIsRecorded | youtube_portfolio.py:196-200 | every item of a successful batch reply is in the map, whatever happened to earlier batches |
| Formatters.FormatDuration | youtube_portfolio.py:281-290 | the output ends in `:` followed by two digits under 60, and the minutes before it are exactly `str` of the floored quotient by 60 |
| Text.IntTextRoundTrip | youtube_portfolio.py:288 | the minutes text `str(m)` is read back as `m` by a reader that accepts only what `str` writes |
| Text.ReadIntTextExact | youtube_portfolio.py:288 | every text that reader accepts is `str` of its value, so no other spelling of the minutes (leading zero, sign, blanks) is possible |
| Formatters.ClockRoundTrip | youtube_portfolio.py:286-288 | every `m:ss` text that reads back as a duration is exactly the text shown for that duration, so the shown text is unique |
| Formatters.DurationRoundTrip | youtube_portfolio.py:286-288 | minutes times 60 plus the seconds shown give back the duration, reading the minutes only in the form `str` writes |
| Formatters.UnparsedDurationShowsZero | youtube_portfolio.py:289-290 | a duration that does not parse shows as "0:00", like a zero-length video |
| Formatters.FormatStat | youtube_portfolio.py:218-222 | "N/A" exactly when `int` raises (digit-count limit aside, see Left out); otherwise a comma-grouped number that reads back, without commas, as `str(int(val))` |
| Formatters.FormatStatRoundTrip | youtube_portfolio.py:218-222 | `int` of the shown counter, commas removed, is `int(val)` |
| Formatters.GroupedInputIsNotANumber | youtube_portfolio.py:218-222 | an already grouped counter such as "1,234" shows as "N/A" |
| Formatters.FormatDate | youtube_portfolio.py:210-216 | an unparsable date is shown unchanged; a parsed one in the `년 월 일` form |
| Formatters.KoreanDate | youtube_portfolio.py:214 | `strftime('%Y년 %m월 %d일')` of a parsed date; FormatDateRoundTrip shows the year, month and day read back from it |
| Formatters.FormatDateRoundTrip | youtube_portfolio.py:213-214 | the year, month and day read back from the Korean notation are the parsed date |
| Catalog.Pair | youtube_portfolio.py:404-406 | one entry per search result, in order, carrying the fetched details for its id when there are any and none otherwise |
| Catalog.Partition | youtube_portfolio.py:404-419 | the Shorts and regular lists together have as many entries as the results; PartitionFilters and PartitionKeepsAll fix them as the complementary filters at 60 seconds |
| Catalog.ExcludePodcasts | youtube_portfolio.py:429-430 | no kept entry's id is in the podcast playlist, every other entry keeps its multiplicity, and the order is kept |
| Catalog.Search | youtube_portfolio.py:433-435 | every kept entry's lower-cased title contains the lower-cased term, every matching entry keeps its multiplicity, and the order is kept; the empty term keeps everything |
| Catalog.PartitionFilters | youtube_portfolio.py:401-419 | the Shorts list and the regular list are the two complementary filters of the results by length, in order |
| Catalog.PartitionKeepsAll | youtube_portfolio.py:401-419 | together the two lists hold every result as often as it was fetched |
| Catalog.SearchKeepsMatches | youtube_portfolio.py:433-435 | the search keeps exactly the entries whose lower-cased title contains the lower-cased term; the empty-term guard changes nothing |
| Catalog.SortEntries | youtube_portfolio.py:438-446 | the sort fails exactly when sorting by views and some view count is not an integer; otherwise it gives a permutation |
| Catalog.SortEntriesOrdered | youtube_portfolio.py:438-446 | the chosen order holds in the result and equal keys keep their order |
| Catalog.LatestIsNewestFirst | youtube_portfolio.py:438-440 | newest first: no later entry was published after an earlier one |
| Catalog.PopularIsMostViewedFirst | youtube_portfolio.py:441-443 | most viewed first: no later entry has more views than an earlier one |
| Catalog.ByTitleIsAlphabetical | youtube_portfolio.py:444-446 | title order: no later title sorts before an earlier one |
| Catalog.ArrangeVideosContents | youtube_portfolio.py:395-446 | each list holds exactly the fetched entries of its kind that are not podcast episodes and match the search, with their multiplicities, in the chosen order; the listing fails only for an unparsable view count under the views order |
| Catalog.ArrangeVideos | youtube_portfolio.py:395-446 | pairing, splitting, podcast exclusion, search and sort in that order; ArrangeVideosContents, NoPodcastListed and SortEntriesOrdered characterise the lists it gives |
| Catalog.NoPodcastListed | youtube_portfolio.py:422-430 | no video of the podcast playlist appears among the videos or the Shorts |
| ChannelData.DefaultDocument | youtube_portfolio.py:126-137 | the default document has no videos and exactly the header keys plus `last_updated`, stamped with the current time |
| ChannelData.DefaultDocumentConsistent | data_manager.py:26-37 | the default document has every header key, and its video count "0" matches its empty list |
| ChannelData.LoadChannelData | data_manager.py:17-37 | a readable file is returned as is; otherwise exactly the default document, with no videos, the header keys and `last_updated` stamped with the clock reading |
| DataManager.AddVideo | data_manager.py:143-168 | without a title or a URL the document is unchanged; otherwise exactly the record built from the form is appended, with id `video{n+1}`; the video count and `last_updated` are set and every other `channel_info` key keeps its value |
| DataManager.Resync | data_manager.py:161-162 | after an add or a delete (also lines 178-179): the video count becomes `str` of the new length, `last_updated` becomes the clock reading, and every other key keeps its value |
| DataManager.NewRecord | data_manager.py:148-158 | the record carries id `video{count+1}`, the form's text fields, a stamp that reads back as the chosen moment, and the form's views, likes and thumbnail, with empty inputs becoming "0", "0" and the placeholder image |
| DataManager.DeleteVideo | data_manager.py:176-179 | no video with the title remains, every other video is kept with its multiplicity and order, and the count and `last_updated` are set while every other `channel_info` key keeps its value |
| DataManager.DeleteIdempotent | data_manager.py:177 | deleting the same title again changes nothing |
| DataManager.DeleteUndoesAdd | data_manager.py:143-179 | deleting the title of a just-added video, when the title was new, restores the previous list |
| DataManager.IdRepeatsAfterDelete | data_manager.py:149 | after a deletion, an added video can receive an id that is still in use |
| DataManager.IsoStampRoundTrip | data_manager.py:146-152 | the stored upload stamp reads back as the entered date and time |
| DataManager.IsoStamp | data_manager.py:152 | `strftime('%Y-%m-%dT%H:%M:%SZ')` of the entered moment; IsoStampRoundTrip and StampShowsDate characterise it |
| DataManager.First10 | data_manager.py:116 | the slice `[:10]`: a prefix of at most ten characters, exactly ten when the stamp is longer, the whole stamp when it is shorter |
| DataManager.StampShowsDate | data_manager.py:116 | for a four-digit year, the first ten characters of a stamp are its date |
| DataManager.PrefilledForm | data_manager.py:66-74 | the form opens with the count of stored videos, not the stored count |
| DataManager.SaveChannelInfo | data_manager.py:88-96 | the five fields and `last_updated` are written, other keys and the videos are untouched, and the count agrees with the list exactly when the form's count field does |
| DataManager.SavePrefilledResyncs | data_manager.py:66-96 | saving the unedited form keeps the stored header values and corrects a stale video count |
| DataManager.TableRows | data_manager.py:111-120 | one row per video, numbered from 1, with the upload column the first ten characters of the stamp (the whole stamp when it is shorter) |
| DataManager.TableShowsAddedDate | data_manager.py:116 | a video added through the form shows its date in the table |
| DataManager.CountValue | data_manager.py:197 | a count that is not a non-empty digit run once its commas are removed contributes nothing |
| DataManager.CountValueIsInt | data_manager.py:197 | a counted value is what `int` reads from the count without its commas |
| DataManager.GroupedCountCounts | data_manager.py:197 | a count written with thousands separators counts in full |
| DataManager.TotalAppend | data_manager.py:197-201 | totals add up over concatenated lists |
| DataManager.Total | data_manager.py:197-201 | the sum of the counted values of one field over the videos; TotalAppend, AddVideoTotals and DeleteVideoTotals characterise it |
| DataManager.AddVideoTotals | data_manager.py:156-157 | adding a video raises each total by what its counts contribute |
| DataManager.DeleteVideoTotals | data_manager.py:177 | deleting a title lowers each total by exactly the counts of the deleted videos |
| DataManager.Recent | data_manager.py:210 | at most five videos, drawn from the stored ones |
| DataManager.RecentIsNewest | data_manager.py:210 | the list is newest first, and no video left out was published after one that is shown |
| DataManager.RecentIsStable | data_manager.py:210 | videos with the same stamp appear in their stored order, the first of them first |
| Portfolio.ChannelHeader | youtube_portfolio.py:298-312 | an API channel wins, with "Haneul CCM", "" and "0" for missing fields; otherwise the stored values are used, and the page fails exactly when a header key is missing |
| Portfolio.ShowHeader | youtube_portfolio.py:323-358 | the title is kept; each counter shows `format_stat` of its value, which is "N/A" exactly when it is not an integer; a non-empty description is shown as is and an empty one as the placeholder |
| Portfolio.ColdStartHeader | youtube_portfolio.py:298-312 | with no file and no API, the header shows the default title and description, "N/A" subscribers and zero videos and views |
| Portfolio.VideoSectionOf | youtube_portfolio.py:394-535 | the stored videos are shown exactly when the search yields no videos; otherwise the arranged listing is shown exactly when it can be built and every card has integer view and like counts, and the page crashes in every other case |
| Portfolio.SearchDownShowsSamples | youtube_portfolio.py:237-252 | a first search request that raises or is refused makes the page show the stored videos |
| Portfolio.ListedSectionContents | youtube_portfolio.py:395-446 | the shown lists hold exactly the fetched, non-podcast, matching entries of their kind |

## Left out

- Text.PyInt: Python 3.11 and later (and 3.10.7, 3.9.14) refuse decimal text of more than 4300 digits: `int(s)` raises `ValueError`, and `str(i)` and `f"{i:,}"` raise for such a number. The model reads and writes digit runs of any length. So for counters that long, `Formatters.FormatStat` groups the number where the source shows "N/A" (youtube_portfolio.py:220), `DataManager.CountValue` and `Total` add it where the statistics tab raises (data_manager.py:197, 201), and `Catalog.SortEntries` and `Portfolio.VideoSectionOf` sort and render where the page raises (youtube_portfolio.py:442-443, 473, 505). The limit is an interpreter setting (`sys.set_int_max_str_digits`), not part of the program.
- The Streamlit UI, CSS themes, dark mode, widgets and messages are left out: they only present data.
- URLs, query parameters, the API key and the secrets are left out: they only configure requests, and the scripted replies stand in for the requests.
- `isodate.parse_duration` and float seconds are left out. A duration is given as whole seconds, or as `None` when it is missing or does not parse.
- The `strptime` calendar check is left out. `format_date` receives the parse outcome as a parameter.
- File reading and writing, JSON encoding, the JSON/CSV export and the backup tab are left out: they are I/O. `load_channel_data` receives the parsed file or `None`.
- Unicode behaviour is left out. `lower`, `isdigit`, `isspace` and `int` are modelled on ASCII: non-ASCII digits and case folding beyond `A`–`Z` are not covered.
- `get_videos` (youtube_portfolio.py:161-180) is left out because nothing calls it.
- Upstream.GetVideoDetails: a reply item without an `id` raises part-way through a batch and keeps the items recorded before it. The model treats such a batch as an exception that contributes nothing.
- Upstream.GetChannelInfo: an empty channel object is falsy in Python and would select the stored header. The model treats any returned channel as present.
- Portfolio.VideoSectionOf: a card whose `int(view_count)` raises stops the page part-way through the regular list. The model reports the whole section as `Crashed`.
- Portfolio.VideoSectionOf: search results and playlist items are taken as well-formed. The source raises `KeyError` on an item without `id.videoId` or `snippet.resourceId.videoId` (youtube_portfolio.py:397, 425) and on a card without `snippet.thumbnails.medium.url` or `snippet.description` (youtube_portfolio.py:468, 471, 500, 503, 523, 526). The model's item types always carry these fields, so those crashes are not represented.
- Upstream requests are assumed to complete. The source calls `requests.get` without a `timeout` (youtube_portfolio.py:149, 174, 197, 239, 267), so a stalled connection blocks `get_channel_info`, the pagination loops, `get_video_details` and the page render indefinitely. The model gives every request either an answer or `Raised`; a hang is a liveness matter outside this functional model.
- Documents are assumed well-formed: every stored video has all nine fields. A record that lacks one raises `KeyError` in the source, and the model does not represent such records.
- DataManager.IsoStamp: writes years below 1000 without padding, as the C library on Linux does. Other platforms pad to four digits.
- Upstream.PaginationOutcome: when every scripted page carries a `nextPageToken`, the loop runs past the script. This is treated as a transport failure with an empty result. The real API always ends with a page without a token.

=== FILE: catalog.dfy ===
/** The catalog derivation of the portfolio page: fetched search results
    are paired with their detail resources, split into Shorts and regular
    videos by length, cleared of the videos of the podcast playlist,
    narrowed by the search box and sorted by the chosen order. */
module Catalog {
  import opened Wrappers
  import opened Text
  import opened Seqs
  import opened Sorting
  import opened Upstream

  /** Videos this long or shorter, in seconds, are listed as Shorts. */
  const ShortsMaxSeconds: int := 60

  /** A search result paired with the details fetched for its id, if any. */
  datatype Entry = Entry(video: SearchResult, details: Option<VideoDetail>)

  function Lookup(details: map<string, VideoDetail>, id: string): Option<VideoDetail> {
    if id in details then Some(details[id]) else None
  }

  /** Every search result, in order, with its details. */
  function Pair(videos: seq<SearchResult>, details: map<string, VideoDetail>): (es: seq<Entry>)
    ensures |es| == |videos|
    ensures forall i :: 0 <= i < |es| ==> es[i].video == videos[i]
    ensures forall i :: 0 <= i < |es| ==>
              es[i].details == (if videos[i].videoId in details then Some(details[videos[i].videoId]) else None)
  {
    seq(|videos|, i requires 0 <= i < |videos| => Entry(videos[i], Lookup(details, videos[i].videoId)))
  }

  /** The length used for the split: missing details, a missing duration and
      an unparsable duration all count as zero seconds. */
  function DurationOf(e: Entry): int {
    match e.details
    case None => 0
    case Some(d) => d.durationSeconds.GetOr(0)
  }

  predicate IsShort(e: Entry) {
    DurationOf(e) <= ShortsMaxSeconds
  }

  predicate IsRegular(e: Entry) {
    !IsShort(e)
  }

  datatype Split = Split(shorts: seq<Entry>, regular: seq<Entry>)

  /** The loop that appends each video to `shorts` or to `normal_videos`. */
  function Partition(es: seq<Entry>): (p: Split)
    ensures |p.shorts| + |p.regular| == |es|
  {
    if es == [] then Split([], [])
    else
      var p := Partition(es[..|es| - 1]);
      var e := es[|es| - 1];
      if IsShort(e) then Split(p.shorts + [e], p.regular)
      else Split(p.shorts, p.regular + [e])
  }

  /** Each video lands in exactly one of the two lists, in its original
      order: the lists are the two complementary filters of the input. */
  lemma {:induction false} PartitionFilters(es: seq<Entry>)
    ensures Partition(es).shorts == Filter(es, IsShort)
    ensures Partition(es).regular == Filter(es, IsRegular)
  {
    if es != [] {
      var init := es[..|es| - 1];
      var e := es[|es| - 1];
      assert es == init + [e];
      PartitionFilters(init);
      FilterSnoc(init, e, IsShort);
      FilterSnoc(init, e, IsRegular);
    }
  }

  /** Together the two lists hold every video as often as it was fetched. */
  lemma PartitionKeepsAll(es: seq<Entry>)
    ensures multiset(Partition(es).shorts) + multiset(Partition(es).regular) == multiset(es)
  {
    PartitionFilters(es);
    forall x: Entry
      ensures multiset(Partition(es).shorts)[x] + multiset(Partition(es).regular)[x] == multiset(es)[x]
    {
      FilterCount(es, IsShort, x);
      FilterCount(es, IsRegular, x);
    }
  }

  /** The ids of the podcast playlist's videos. */
  function PodcastIds(items: seq<PlaylistItem>): set<string> {
    set i | 0 <= i < |items| :: items[i].videoId
  }

  /** Drops every entry whose video id belongs to the podcast playlist,
      keeping the others in order. */
  function ExcludePodcasts(es: seq<Entry>, ids: set<string>): (r: seq<Entry>)
    ensures forall i :: 0 <= i < |r| ==> r[i].video.videoId !in ids
    ensures forall e | e in es && e.video.videoId !in ids :: multiset(r)[e] == multiset(es)[e]
    ensures multiset(r) <= multiset(es)
    ensures IsSubsequence(r, es)
  {
    Filter(es, (e: Entry) => e.video.videoId !in ids)
  }

  /** The search term occurs in the title, both lower-cased (ASCII). */
  predicate Matches(e: Entry, term: string) {
    Contains(Lower(e.video.title), Lower(term))
  }

  /** The search filter, applied only when the search box is not empty. */
  function Search(es: seq<Entry>, term: string): (r: seq<Entry>)
    ensures forall i :: 0 <= i < |r| ==> Matches(r[i], term)
    ensures forall e | e in es && Matches(e, term) :: multiset(r)[e] == multiset(es)[e]
    ensures multiset(r) <= multiset(es)
    ensures IsSubsequence(r, es)
  {
    if term == "" then
      EmptyTermKeepsAll(es, term);
      es
    else Filter(es, e => Matches(e, term))
  }

  /** The empty search term matches every title, so the guard on it changes
      nothing: the search keeps exactly the matching entries, in order. */
  lemma {:induction false} SearchKeepsMatches(es: seq<Entry>, term: string)
    ensures Search(es, term) == Filter(es, e => Matches(e, term))
  {
    if term == "" {
      EmptyTermKeepsAll(es, term);
    }
  }

  lemma {:induction false} EmptyTermKeepsAll(es: seq<Entry>, term: string)
    requires term == ""
    ensures Filter(es, e => Matches(e, term)) == es
  {
    if es != [] {
      assert OccursAt(Lower(es[0].video.title), Lower(term), 0);
      EmptyTermKeepsAll(es[1..], term);
      assert es == [es[0]] + es[1..];
    }
  }

  // ---------------------------------------------------------------------------
  // Sort orders
  // ---------------------------------------------------------------------------

  /** The three choices of the sort box: newest first, most viewed first,
      title ascending. */
  datatype SortOrder = Latest | Popular | ByTitle

  /** The view count the sort by views reads: the statistics counter of the
      entry's details, "0" when the details or the counter are missing. */
  function ViewCountText(e: Entry): string {
    match e.details
    case None => "0"
    case Some(d) => d.viewCount.GetOr("0")
  }

  /** A search result's sort key: its `publishedAt` stamp, compared as a string. */
  function PublishedKey(e: Entry): Key {
    Str(e.video.publishedAt)
  }

  function ViewsKey(e: Entry): Key {
    Num(PyInt(ViewCountText(e)).GetOr(0))
  }

  function TitleKey(e: Entry): Key {
    Str(e.video.title)
  }

  function KeyFor(order: SortOrder): Entry -> Key {
    match order
    case Latest => PublishedKey
    case Popular => ViewsKey
    case ByTitle => TitleKey
  }

  function DescendingFor(order: SortOrder): bool {
    order != ByTitle
  }

  predicate ViewCountsParse(es: seq<Entry>) {
    forall i :: 0 <= i < |es| ==> PyInt(ViewCountText(es[i])).Some?
  }

  /** One `list.sort` call of the chosen order. Sorting by views computes
      `int(viewCount)` for every entry first; a count that is not an integer
      raises an uncaught `ValueError` and the page fails (`None`). */
  function SortEntries(es: seq<Entry>, order: SortOrder): (r: Option<seq<Entry>>)
    ensures r.None? <==> order == Popular && !ViewCountsParse(es)
    ensures r.Some? ==> multiset(r.value) == multiset(es)
  {
    if order == Popular && !ViewCountsParse(es) then None
    else Some(Sort(es, KeyFor(order), DescendingFor(order)))
  }

  /** Each sort produces the entries in the chosen order, and entries with
      equal keys keep their relative order (Python's sort is stable, also
      with `reverse=True`). */
  lemma SortEntriesOrdered(es: seq<Entry>, order: SortOrder, k: Key)
    requires SortEntries(es, order).Some?
    ensures SortedBy(SortEntries(es, order).value, KeyFor(order), DescendingFor(order))
    ensures WithKey(SortEntries(es, order).value, KeyFor(order), k) == WithKey(es, KeyFor(order), k)
  {
    SortIsSorted(es, KeyFor(order), DescendingFor(order));
    SortIsStable(es, KeyFor(order), DescendingFor(order), k);
  }

  /** Newest first: a later entry was not published after an earlier one. */
  lemma LatestIsNewestFirst(es: seq<Entry>, i: nat, j: nat)
    requires i < j < |es|
    ensures var r := SortEntries(es, Latest).value;
            !LexLess(r[i].video.publishedAt, r[j].video.publishedAt)
  {
    SortIsSorted(es, PublishedKey, true);
  }

  /** Most viewed first: a later entry has no more views than an earlier one. */
  lemma PopularIsMostViewedFirst(es: seq<Entry>, i: nat, j: nat)
    requires ViewCountsParse(es) && i < j < |es|
    ensures var r := SortEntries(es, Popular).value;
            var earlier, later := PyInt(ViewCountText(r[i])), PyInt(ViewCountText(r[j]));
            earlier.Some? && later.Some? && later.value <= earlier.value
  {
    var r := Sort(es, ViewsKey, true);
    SortIsSorted(es, ViewsKey, true);
    assert !Before(ViewsKey, true, r[j], r[i]);
    ParsedViewsKey(es, r[i]);
    ParsedViewsKey(es, r[j]);
  }

  lemma ParsedViewsKey(es: seq<Entry>, x: Entry)
    requires ViewCountsParse(es) && x in multiset(es)
    ensures PyInt(ViewCountText(x)).Some?
    ensures ViewsKey(x) == Num(PyInt(ViewCountText(x)).value)
  {
    assert x in es;
    var k :| 0 <= k < |es| && es[k] == x;
  }

  /** Title order: a later entry's title does not sort before an earlier one's. */
  lemma ByTitleIsAlphabetical(es: seq<Entry>, i: nat, j: nat)
    requires i < j < |es|
    ensures var r := SortEntries(es, ByTitle).value;
            !LexLess(r[j].video.title, r[i].video.title)
  {
    SortIsSorted(es, TitleKey, false);
  }

  // ---------------------------------------------------------------------------
  // The whole derivation
  // ---------------------------------------------------------------------------

  /** What the page lists: the regular videos, the Shorts, and the podcast
      playlist as fetched. */
  datatype Listing = Listing(regular: seq<Entry>, shorts: seq<Entry>, podcasts: seq<PlaylistItem>)

  /** Lines 395-446 of the page, once the search results, their details and
      the podcast playlist are fetched. */
  function ArrangeVideos(videos: seq<SearchResult>, details: map<string, VideoDetail>,
                         podcasts: seq<PlaylistItem>, term: string, order: SortOrder): Option<Listing>
  {
    var split := Partition(Pair(videos, details));
    var ids := PodcastIds(podcasts);
    var regular := Search(ExcludePodcasts(split.regular, ids), term);
    var shorts := Search(ExcludePodcasts(split.shorts, ids), term);
    match SortEntries(regular, order)
    case None => None
    case Some(sortedRegular) =>
      match SortEntries(shorts, order)
      case None => None
      case Some(sortedShorts) => Some(Listing(sortedRegular, sortedShorts, podcasts))
  }

  /** An entry the page lists: not in the podcast playlist, matching the
      search term, and of the given kind. */
  predicate Listed(e: Entry, ids: set<string>, term: string, short: bool) {
    e.video.videoId !in ids && Matches(e, term) && IsShort(e) == short
  }

  /** The list of one kind before sorting. */
  function Selected(es: seq<Entry>, ids: set<string>, term: string, short: bool): seq<Entry> {
    var split := Partition(es);
    Search(ExcludePodcasts(if short then split.shorts else split.regular, ids), term)
  }

  /** The list of one kind before sorting holds exactly the listed entries
      of that kind, each as often as fetched. */
  lemma SelectedCount(es: seq<Entry>, ids: set<string>, term: string, short: bool, x: Entry)
    ensures multiset(Selected(es, ids, term, short))[x]
         == if Listed(x, ids, term, short) then multiset(es)[x] else 0
  {
    var split := Partition(es);
    var kind := if short then split.shorts else split.regular;
    var excluded := ExcludePodcasts(kind, ids);
    PartitionFilters(es);
    SearchKeepsMatches(excluded, term);
    FilterCount(excluded, e => Matches(e, term), x);
    FilterCount(kind, (e: Entry) => e.video.videoId !in ids, x);
    if short {
      FilterCount(es, IsShort, x);
    } else {
      FilterCount(es, IsRegular, x);
    }
  }

  /** The listing's contents. Each list holds exactly the fetched videos of
      its kind that are not podcast episodes and match the search, each as
      often as fetched, in the chosen order; the page fails only when it
      sorts by views and a listed video's view count is not an integer. */
  lemma ArrangeVideosContents(videos: seq<SearchResult>, details: map<string, VideoDetail>,
                              podcasts: seq<PlaylistItem>, term: string, order: SortOrder, x: Entry)
    ensures var es := Pair(videos, details);
            var ids := PodcastIds(podcasts);
            var r := ArrangeVideos(videos, details, podcasts, term, order);
            && (r.None? <==>
                  (order == Popular &&
                   !(ViewCountsParse(Selected(es, ids, term, false)) && ViewCountsParse(Selected(es, ids, term, true)))))
            && (r.Some? ==>
                  && multiset(r.value.regular)[x] == (if Listed(x, ids, term, false) then multiset(es)[x] else 0)
                  && multiset(r.value.shorts)[x] == (if Listed(x, ids, term, true) then multiset(es)[x] else 0)
                  && SortedBy(r.value.regular, KeyFor(order), DescendingFor(order))
                  && SortedBy(r.value.shorts, KeyFor(order), DescendingFor(order))
                  && r.value.podcasts == podcasts)
  {
    var es := Pair(videos, details);
    var ids := PodcastIds(podcasts);
    var regular := Selected(es, ids, term, false);
    var shorts := Selected(es, ids, term, true);
    SelectedCount(es, ids, term, false, x);
    SelectedCount(es, ids, term, true, x);
    if SortEntries(regular, order).Some? && SortEntries(shorts, order).Some? {
      SortIsSorted(regular, KeyFor(order), DescendingFor(order));
      SortIsSorted(shorts, KeyFor(order), DescendingFor(order));
    }
  }

  /** No podcast episode is listed among the videos or the Shorts. */
  lemma NoPodcastListed(videos: seq<SearchResult>, details: map<string, VideoDetail>,
                        podcasts: seq<PlaylistItem>, term: string, order: SortOrder, i: nat)
    requires ArrangeVideos(videos, details, podcasts, term, order).Some?
    ensures var l := ArrangeVideos(videos, details, podcasts, term, order).value;
            && (i < |l.regular| ==> l.regular[i].video.videoId !in PodcastIds(podcasts))
            && (i < |l.shorts| ==> l.shorts[i].video.videoId !in PodcastIds(podcasts))
  {
    var l := ArrangeVideos(videos, details, podcasts, term, order).value;
    if i < |l.regular| {
      ArrangeVideosContents(videos, details, podcasts, term, order, l.regular[i]);
      assert l.regular[i] in multiset(l.regular);
    }
    if i < |l.shorts| {
      ArrangeVideosContents(videos, details, podcasts, term, order, l.shorts[i]);
      assert l.shorts[i] in multiset(l.shorts);
    }
  }
}

=== FILE: channel_data.dfy ===
/** The channel document both programs keep in `channel_data.json`: the
    channel's header fields as a string-to-string object and the manually
    entered videos. Both programs read it with the same `load_channel_data`,
    which falls back to a built-in default document. */
module ChannelData {
  import opened Wrappers
  import opened Text

  /** One manually entered video, with the fields the data manager writes. */
  datatype Video = Video(
    id: string,
    title: string,
    description: string,
    publishedAt: string,
    thumbnail: string,
    youtubeUrl: string,
    duration: string,
    views: string,
    likes: string)

  /** The JSON document: `channel_info` and `videos`. */
  datatype Document = Document(channelInfo: map<string, string>, videos: seq<Video>)

  const DefaultTitle: string := "Haneul CCM"
  const DefaultDescription: string := "CCM 작곡가 하늘의 음악 세계에 오신 것을 환영합니다."
  const DefaultSubscriberCount: string := "1,234"

  /** The keys of `channel_info` the portfolio page reads when the API
      gives no channel. */
  const HeaderKeys: set<string> := {"title", "description", "subscriber_count", "video_count", "view_count"}

  /** `channel_info` holds every key the portfolio page reads. */
  predicate HasHeaderKeys(info: map<string, string>) {
    HeaderKeys <= info.Keys
  }

  /** The stored video count agrees with the number of stored videos:
      `video_count` is the decimal form of the list's length. */
  predicate CountInSync(doc: Document) {
    "video_count" in doc.channelInfo && doc.channelInfo["video_count"] == Decimal(|doc.videos|)
  }

  /** The document `load_channel_data` returns when there is no readable
      file; `now` is the clock reading it stamps as `last_updated`. */
  function DefaultDocument(now: string): (doc: Document)
    ensures doc.videos == []
    ensures doc.channelInfo.Keys == HeaderKeys + {"last_updated"}
    ensures doc.channelInfo["last_updated"] == now
  {
    Document(
      map["title" := DefaultTitle,
          "description" := DefaultDescription,
          "subscriber_count" := DefaultSubscriberCount,
          "video_count" := "0",
          "view_count" := "0",
          "last_updated" := now],
      [])
  }

  /** The default document is consistent: it has every header key and its
      video count, "0", matches its empty video list. */
  lemma DefaultDocumentConsistent(now: string)
    ensures HasHeaderKeys(DefaultDocument(now).channelInfo)
    ensures CountInSync(DefaultDocument(now))
  {
    assert Decimal(0) == "0";
  }

  /** `load_channel_data`: `stored` is the parsed file, `None` when the file
      is missing or could not be read or parsed. */
  function LoadChannelData(stored: Option<Document>, now: string): (doc: Document)
    ensures stored.Some? ==> doc == stored.value
    ensures stored.None? ==> doc.videos == [] && HasHeaderKeys(doc.channelInfo) && CountInSync(doc)
    ensures stored.None? ==> doc.channelInfo.Keys == HeaderKeys + {"last_updated"}
    ensures stored.None? ==> doc.channelInfo["last_updated"] == now
    ensures stored.None? ==> doc == DefaultDocument(now)
  {
    DefaultDocumentConsistent(now);
    match stored
    case Some(d) => d
    case None => DefaultDocument(now)
  }
}

=== FILE: data_manager.dfy ===
/** The data manager's edits of the channel document and the figures it
    derives from it: adding and deleting a video, saving the channel form,
    the video table, the totals and the five most recent uploads. Each edit
    is a function from the loaded document to the document it saves; `now`
    is the clock reading stamped as `last_updated`. */
module DataManager {
  import opened Wrappers
  import opened Text
  import opened Seqs
  import opened Sorting
  import opened Formatters
  import opened ChannelData

  /** Python's `a or b` on strings: `a` unless it is empty. */
  function OrElse(a: string, b: string): (r: string)
    ensures r != "" <== a != "" || b != ""
    ensures a != "" ==> r == a
    ensures a == "" ==> r == b
  {
    if a == "" then b else a
  }

  const PlaceholderThumbnail: string := "https://via.placeholder.com/320x180/667eea/ffffff?text=CCM+Music"

  // ---------------------------------------------------------------------------
  // Upload stamps
  // ---------------------------------------------------------------------------

  /** The date and time widgets combined by `datetime.combine`. */
  datatype Moment = Moment(date: Date, hour: nat, minute: nat, second: nat)

  predicate ValidMoment(m: Moment) {
    ValidDate(m.date) && m.hour < 24 && m.minute < 60 && m.second < 60
  }

  /** `strftime('%Y-%m-%dT%H:%M:%SZ')`; `%Y` writes the year without padding,
      as the C library of Linux does. */
  function IsoStamp(m: Moment): string
    requires ValidMoment(m)
  {
    Decimal(m.date.year) + StampTail(m)
  }

  /** Reads a stamp back; the year is everything before the last 16 characters. */
  function ReadIsoStamp(s: string): Option<Moment> {
    if |s| < 17 then None
    else
      var y := s[..|s| - 16];
      var t := s[|s| - 16..];
      if t[0] == '-' && t[3] == '-' && t[6] == 'T' && t[9] == ':' && t[12] == ':' && t[15] == 'Z'
         && AllDigits(y) && AllDigits(t[1..3]) && AllDigits(t[4..6])
         && AllDigits(t[7..9]) && AllDigits(t[10..12]) && AllDigits(t[13..15])
      then Some(Moment(Date(DigitsValue(y), DigitsValue(t[1..3]), DigitsValue(t[4..6])),
                       DigitsValue(t[7..9]), DigitsValue(t[10..12]), DigitsValue(t[13..15])))
      else None
  }

  /** The stored upload stamp loses nothing. */
  lemma IsoStampRoundTrip(m: Moment)
    requires ValidMoment(m)
    ensures ReadIsoStamp(IsoStamp(m)) == Some(m)
  {
    var s := IsoStamp(m);
    var y := Decimal(m.date.year);
    var t := StampTail(m);
    assert s == y + t;
    assert s[..|s| - 16] == y && s[|s| - 16..] == t;
    StampTailFields(m);
    DecimalValue(m.date.year);
  }

  /** Everything of a stamp after the year. */
  function StampTail(m: Moment): string
    requires ValidMoment(m)
  {
    "-" + Pad2(m.date.month) + "-" + Pad2(m.date.day)
    + "T" + Pad2(m.hour) + ":" + Pad2(m.minute) + ":" + Pad2(m.second) + "Z"
  }

  /** Where the separators and the two-digit fields sit in the tail. */
  lemma StampTailFields(m: Moment)
    requires ValidMoment(m)
    ensures var t := StampTail(m);
            && |t| == 16
            && t[0] == '-' && t[3] == '-' && t[6] == 'T' && t[9] == ':' && t[12] == ':' && t[15] == 'Z'
            && t[1..3] == Pad2(m.date.month) && t[4..6] == Pad2(m.date.day)
            && t[7..9] == Pad2(m.hour) && t[10..12] == Pad2(m.minute) && t[13..15] == Pad2(m.second)
  {
  }

  /** The first ten characters of a stamp, or all of it when it is shorter
      (Python's slice `[:10]`). */
  function First10(s: string): (r: string)
    ensures |r| <= 10 && r <= s
    ensures |s| >= 10 ==> |r| == 10
    ensures |s| < 10 ==> r == s
  {
    if |s| <= 10 then s else s[..10]
  }

  lemma FourDigitYear(y: nat)
    requires 1000 <= y < 10000
    ensures |Decimal(y)| == 4
  {
    assert Decimal(y) == Decimal(y / 10) + [DigitChar(y % 10)];
    assert Decimal(y / 10) == Decimal(y / 100) + [DigitChar((y / 10) % 10)];
  }

  /** For a four-digit year the first ten characters of a stamp, which the
      table and the recent-uploads list show, are exactly its date. */
  lemma StampShowsDate(m: Moment)
    requires ValidMoment(m) && 1000 <= m.date.year < 10000
    ensures First10(IsoStamp(m)) == Decimal(m.date.year) + "-" + Pad2(m.date.month) + "-" + Pad2(m.date.day)
  {
    FourDigitYear(m.date.year);
    var d := Decimal(m.date.year) + "-" + Pad2(m.date.month) + "-" + Pad2(m.date.day);
    var rest := "T" + Pad2(m.hour) + ":" + Pad2(m.minute) + ":" + Pad2(m.second) + "Z";
    assert IsoStamp(m) == d + rest;
    assert (d + rest)[..10] == d;
  }

  // ---------------------------------------------------------------------------
  // Adding and deleting videos
  // ---------------------------------------------------------------------------

  /** The inputs of the "new video" form. */
  datatype VideoForm = VideoForm(
    title: string,
    description: string,
    published: Moment,
    youtubeUrl: string,
    duration: string,
    views: string,
    likes: string,
    thumbnail: string)

  /** The record the "add" button appends after `count` stored videos. */
  function NewRecord(form: VideoForm, count: nat): (v: Video)
    requires ValidMoment(form.published)
    ensures v.id == "video" + Decimal(count + 1)
    ensures v.title == form.title && v.description == form.description
    ensures v.youtubeUrl == form.youtubeUrl && v.duration == form.duration
    ensures v.publishedAt == IsoStamp(form.published)
    ensures ReadIsoStamp(v.publishedAt) == Some(form.published)
    ensures form.thumbnail == "" ==> v.thumbnail == PlaceholderThumbnail
    ensures form.thumbnail != "" ==> v.thumbnail == form.thumbnail
    ensures form.views == "" ==> v.views == "0"
    ensures form.views != "" ==> v.views == form.views
    ensures form.likes == "" ==> v.likes == "0"
    ensures form.likes != "" ==> v.likes == form.likes
  {
    IsoStampRoundTrip(form.published);
    Video(
      "video" + Decimal(count + 1),
      form.title,
      form.description,
      IsoStamp(form.published),
      OrElse(form.thumbnail, PlaceholderThumbnail),
      form.youtubeUrl,
      form.duration,
      OrElse(form.views, "0"),
      OrElse(form.likes, "0"))
  }

  /** The channel info after an edit of the video list: `video_count` is
      rewritten from the new list and `last_updated` is stamped. */
  function Resync(info: map<string, string>, count: nat, now: string): (r: map<string, string>)
    ensures r.Keys == info.Keys + {"video_count", "last_updated"}
    ensures r["video_count"] == Decimal(count) && r["last_updated"] == now
    ensures forall k | k in info && k != "video_count" && k != "last_updated" :: r[k] == info[k]
  {
    info["video_count" := Decimal(count)]["last_updated" := now]
  }

  /** The "add" button. Without a title or a URL nothing is added and the
      document stays as it was; otherwise one record is appended and the
      video count is brought in line with the list. */
  function AddVideo(doc: Document, form: VideoForm, now: string): (r: Document)
    requires ValidMoment(form.published)
    ensures form.title == "" || form.youtubeUrl == "" ==> r == doc
    ensures form.title != "" && form.youtubeUrl != "" ==>
              && |r.videos| == |doc.videos| + 1
              && r.videos[..|doc.videos|] == doc.videos
              && r.videos[|doc.videos|] == NewRecord(form, |doc.videos|)
              && r.videos[|doc.videos|].id == "video" + Decimal(|r.videos|)
              && CountInSync(r)
              && r.channelInfo.Keys == doc.channelInfo.Keys + {"video_count", "last_updated"}
              && r.channelInfo["last_updated"] == now
              && (forall k | k in doc.channelInfo && k != "video_count" && k != "last_updated" ::
                    r.channelInfo[k] == doc.channelInfo[k])
    ensures HasHeaderKeys(doc.channelInfo) ==> HasHeaderKeys(r.channelInfo)
  {
    if form.title != "" && form.youtubeUrl != "" then
      var videos := doc.videos + [NewRecord(form, |doc.videos|)];
      assert videos[..|doc.videos|] == doc.videos;
      Document(Resync(doc.channelInfo, |videos|, now), videos)
    else doc
  }

  /** Whether a video's title differs from `title`. */
  predicate TitleIsNot(v: Video, title: string) {
    v.title != title
  }

  /** The "delete" button: every video with the selected title goes,
      duplicates included; the others stay, in order. */
  function DeleteVideo(doc: Document, title: string, now: string): (r: Document)
    ensures forall i :: 0 <= i < |r.videos| ==> r.videos[i].title != title
    ensures forall v | v in doc.videos && v.title != title :: multiset(r.videos)[v] == multiset(doc.videos)[v]
    ensures IsSubsequence(r.videos, doc.videos)
    ensures CountInSync(r)
    ensures r.channelInfo.Keys == doc.channelInfo.Keys + {"video_count", "last_updated"}
    ensures r.channelInfo["last_updated"] == now
    ensures forall k | k in doc.channelInfo && k != "video_count" && k != "last_updated" ::
              r.channelInfo[k] == doc.channelInfo[k]
    ensures HasHeaderKeys(doc.channelInfo) ==> HasHeaderKeys(r.channelInfo)
  {
    var videos := Filter(doc.videos, (v: Video) => TitleIsNot(v, title));
    Document(Resync(doc.channelInfo, |videos|, now), videos)
  }

  /** Deleting the same title twice changes the list no further. */
  lemma DeleteIdempotent(doc: Document, title: string, now: string, later: string)
    ensures DeleteVideo(DeleteVideo(doc, title, now), title, later).videos == DeleteVideo(doc, title, now).videos
  {
    FilterKeepsAll(DeleteVideo(doc, title, now).videos, title);
  }

  lemma {:induction false} FilterKeepsAll(vs: seq<Video>, title: string)
    requires forall i :: 0 <= i < |vs| ==> vs[i].title != title
    ensures Filter(vs, (v: Video) => TitleIsNot(v, title)) == vs
  {
    if vs != [] {
      FilterKeepsAll(vs[1..], title);
      assert vs == [vs[0]] + vs[1..];
    }
  }

  /** Deleting the title of a video just added, when no other video had
      that title, gives back the previous video list. */
  lemma DeleteUndoesAdd(doc: Document, form: VideoForm, now: string, later: string)
    requires ValidMoment(form.published) && form.title != "" && form.youtubeUrl != ""
    requires forall i :: 0 <= i < |doc.videos| ==> doc.videos[i].title != form.title
    ensures DeleteVideo(AddVideo(doc, form, now), form.title, later).videos == doc.videos
  {
    var added := AddVideo(doc, form, now).videos;
    assert added == doc.videos + [NewRecord(form, |doc.videos|)];
    FilterAppend(doc.videos, [NewRecord(form, |doc.videos|)], (v: Video) => TitleIsNot(v, form.title));
    FilterKeepsAll(doc.videos, form.title);
    assert [NewRecord(form, |doc.videos|)][1..] == [];
  }

  /** Ids are `video{len + 1}` at the time of adding, so after a deletion a
      new video can receive the id of one still stored. */
  lemma IdRepeatsAfterDelete(doc: Document, form: VideoForm, now: string, later: string)
    requires ValidMoment(form.published) && form.title != "" && form.youtubeUrl != ""
    requires |doc.videos| == 2 && doc.videos[1].id == "video2"
    requires doc.videos[0].title != doc.videos[1].title
    ensures var r := AddVideo(DeleteVideo(doc, doc.videos[0].title, now), form, later);
            |r.videos| == 2 && r.videos[0].id == r.videos[1].id == "video2"
  {
    var t := doc.videos[0].title;
    var d := DeleteVideo(doc, t, now);
    assert d.videos == [doc.videos[1]] by {
      var p := (v: Video) => TitleIsNot(v, t);
      assert doc.videos == [doc.videos[0]] + [doc.videos[1]];
      FilterAppend([doc.videos[0]], [doc.videos[1]], p);
      assert [doc.videos[0]][1..] == [] && [doc.videos[1]][1..] == [];
    }
    var r := AddVideo(d, form, later);
    assert r.videos[1] == NewRecord(form, 1);
    assert Decimal(2) == "2";
  }

  // ---------------------------------------------------------------------------
  // Saving the channel form
  // ---------------------------------------------------------------------------

  /** The inputs of the channel form. */
  datatype InfoForm = InfoForm(
    title: string,
    description: string,
    subscriberCount: string,
    videoCount: string,
    viewCount: string)

  /** The value stored under `key`, or the empty string when it is absent. */
  function GetOrEmpty(info: map<string, string>, key: string): string {
    if key in info then info[key] else ""
  }

  /** The form as it opens: the stored values, and the video count computed
      from the video list rather than read from `channel_info`. */
  function PrefilledForm(doc: Document): (f: InfoForm)
    ensures f.videoCount == Decimal(|doc.videos|)
    ensures "title" in doc.channelInfo ==> f.title == doc.channelInfo["title"]
  {
    InfoForm(
      GetOrEmpty(doc.channelInfo, "title"),
      GetOrEmpty(doc.channelInfo, "description"),
      GetOrEmpty(doc.channelInfo, "subscriber_count"),
      Decimal(|doc.videos|),
      GetOrEmpty(doc.channelInfo, "view_count"))
  }

  /** `channel_info.update({...})`: the five form fields and `last_updated`
      are written; every other key and the video list are untouched. The
      stored video count agrees with the list exactly when the form's count
      field does. */
  function SaveChannelInfo(doc: Document, form: InfoForm, now: string): (r: Document)
    ensures r.videos == doc.videos
    ensures r.channelInfo.Keys == doc.channelInfo.Keys + HeaderKeys + {"last_updated"}
    ensures HasHeaderKeys(r.channelInfo)
    ensures r.channelInfo["title"] == form.title && r.channelInfo["description"] == form.description
    ensures r.channelInfo["subscriber_count"] == form.subscriberCount
    ensures r.channelInfo["video_count"] == form.videoCount && r.channelInfo["view_count"] == form.viewCount
    ensures r.channelInfo["last_updated"] == now
    ensures CountInSync(r) <==> form.videoCount == Decimal(|doc.videos|)
    ensures forall k | k in doc.channelInfo && k !in HeaderKeys && k != "last_updated" ::
              r.channelInfo[k] == doc.channelInfo[k]
  {
    var info := doc.channelInfo["title" := form.title]["description" := form.description]
                ["subscriber_count" := form.subscriberCount]["video_count" := form.videoCount]
                ["view_count" := form.viewCount]["last_updated" := now];
    Document(info, doc.videos)
  }

  /** Saving the form unedited keeps every stored header value, fills a
      missing one with "", and corrects a stale video count. */
  lemma SavePrefilledResyncs(doc: Document, now: string)
    ensures var r := SaveChannelInfo(doc, PrefilledForm(doc), now);
            && CountInSync(r)
            && (forall k | k in HeaderKeys && k != "video_count" ::
                  r.channelInfo[k] == GetOrEmpty(doc.channelInfo, k))
  {
  }

  // ---------------------------------------------------------------------------
  // Table and statistics
  // ---------------------------------------------------------------------------

  /** One row of the video table. */
  datatype Row = Row(number: nat, title: string, uploaded: string, views: string, likes: string, duration: string)

  /** The table of stored videos: numbered from 1, upload date cut to its
      first ten characters, the other columns as stored. */
  function TableRows(vs: seq<Video>): (rows: seq<Row>)
    ensures |rows| == |vs|
    ensures forall i :: 0 <= i < |rows| ==> rows[i].number == i + 1 && rows[i].title == vs[i].title
    ensures forall i :: 0 <= i < |rows| ==> rows[i].uploaded <= vs[i].publishedAt
    ensures forall i :: 0 <= i < |rows| ==>
              |rows[i].uploaded| == if |vs[i].publishedAt| < 10 then |vs[i].publishedAt| else 10
    ensures forall i :: 0 <= i < |rows| ==>
              rows[i].views == vs[i].views && rows[i].likes == vs[i].likes && rows[i].duration == vs[i].duration
  {
    seq(|vs|, i requires 0 <= i < |vs| =>
      Row(i + 1, vs[i].title, First10(vs[i].publishedAt), vs[i].views, vs[i].likes, vs[i].duration))
  }

  /** A video added through the form shows its upload date in the table
      (for four-digit years). */
  lemma TableShowsAddedDate(doc: Document, form: VideoForm, now: string)
    requires ValidMoment(form.published) && 1000 <= form.published.date.year < 10000
    requires form.title != "" && form.youtubeUrl != ""
    ensures var d := form.published.date;
            var rows := TableRows(AddVideo(doc, form, now).videos);
            rows[|doc.videos|].uploaded == Decimal(d.year) + "-" + Pad2(d.month) + "-" + Pad2(d.day)
  {
    StampShowsDate(form.published);
  }

  /** What one stored count contributes to a total: the count with its
      commas removed when what remains is a non-empty run of digits
      (`str.isdigit`), and nothing otherwise. */
  function CountValue(s: string): (n: nat)
    ensures Remove(s, ',') == "" || !AllDigits(Remove(s, ',')) ==> n == 0
  {
    var t := Remove(s, ',');
    if t != "" && AllDigits(t) then DigitsValue(t) else 0
  }

  /** A counted value is what `int` reads from the count without its commas. */
  lemma CountValueIsInt(s: string)
    requires Remove(s, ',') != "" && AllDigits(Remove(s, ','))
    ensures PyInt(Remove(s, ',')) == Some(CountValue(s) as int)
  {
    PyIntOfDigits(Remove(s, ','));
  }

  /** A count written with thousands separators counts in full. */
  lemma GroupedCountCounts(n: nat)
    ensures CountValue(Group(n)) == n
  {
    GroupUngroups(n);
    DecimalValue(n);
  }

  function ViewsOf(v: Video): string { v.views }
  function LikesOf(v: Video): string { v.likes }

  /** The sum of one count field over the videos. */
  function Total(vs: seq<Video>, field: Video -> string): nat {
    if vs == [] then 0 else CountValue(field(vs[0])) + Total(vs[1..], field)
  }

  function TotalViews(vs: seq<Video>): nat { Total(vs, ViewsOf) }
  function TotalLikes(vs: seq<Video>): nat { Total(vs, LikesOf) }

  lemma {:induction false} TotalAppend(a: seq<Video>, b: seq<Video>, field: Video -> string)
    ensures Total(a + b, field) == Total(a, field) + Total(b, field)
  {
    if a == [] {
      assert a + b == b;
    } else {
      assert (a + b)[0] == a[0] && (a + b)[1..] == a[1..] + b;
      TotalAppend(a[1..], b, field);
    }
  }

  predicate HasTitle(v: Video, title: string) {
    v.title == title
  }

  /** Deleting by title splits a total: what is kept and what is deleted
      add up to the whole. */
  lemma {:induction false} TotalSplits(vs: seq<Video>, title: string, field: Video -> string)
    ensures Total(Filter(vs, (v: Video) => TitleIsNot(v, title)), field)
          + Total(Filter(vs, (v: Video) => HasTitle(v, title)), field) == Total(vs, field)
  {
    if vs != [] {
      TotalSplits(vs[1..], title, field);
      assert vs == [vs[0]] + vs[1..];
      var kept := Filter(vs[1..], (v: Video) => TitleIsNot(v, title));
      var gone := Filter(vs[1..], (v: Video) => HasTitle(v, title));
      if TitleIsNot(vs[0], title) {
        assert Filter(vs, (v: Video) => TitleIsNot(v, title)) == [vs[0]] + kept;
        assert Total([vs[0]] + kept, field) == CountValue(field(vs[0])) + Total(kept, field);
      } else {
        assert Filter(vs, (v: Video) => HasTitle(v, title)) == [vs[0]] + gone;
        assert Total([vs[0]] + gone, field) == CountValue(field(vs[0])) + Total(gone, field);
      }
    }
  }

  /** Adding a video raises each total by what its counts contribute. */
  lemma AddVideoTotals(doc: Document, form: VideoForm, now: string)
    requires ValidMoment(form.published) && form.title != "" && form.youtubeUrl != ""
    ensures TotalViews(AddVideo(doc, form, now).videos) == TotalViews(doc.videos) + CountValue(OrElse(form.views, "0"))
    ensures TotalLikes(AddVideo(doc, form, now).videos) == TotalLikes(doc.videos) + CountValue(OrElse(form.likes, "0"))
  {
    var v := NewRecord(form, |doc.videos|);
    TotalAppend(doc.videos, [v], ViewsOf);
    TotalAppend(doc.videos, [v], LikesOf);
    assert [v][1..] == [];
  }

  /** Deleting a title lowers each total by exactly the counts of the
      videos carrying that title. */
  lemma DeleteVideoTotals(doc: Document, title: string, now: string)
    ensures var gone := Filter(doc.videos, (v: Video) => HasTitle(v, title));
            && TotalViews(DeleteVideo(doc, title, now).videos) + TotalViews(gone) == TotalViews(doc.videos)
            && TotalLikes(DeleteVideo(doc, title, now).videos) + TotalLikes(gone) == TotalLikes(doc.videos)
  {
    TotalSplits(doc.videos, title, ViewsOf);
    TotalSplits(doc.videos, title, LikesOf);
  }

  // ---------------------------------------------------------------------------
  // Recent uploads
  // ---------------------------------------------------------------------------

  const RecentCount: nat := 5

  /** A stored video's sort key: its upload stamp, compared as a string. */
  function VideoPublishedKey(v: Video): Key {
    Str(v.publishedAt)
  }

  /** The five most recently published videos, newest first: a stable
      descending sort on the stamp, cut to its first five. */
  function Recent(vs: seq<Video>): (r: seq<Video>)
    ensures |r| == if |vs| < RecentCount then |vs| else RecentCount
    ensures multiset(r) <= multiset(vs)
  {
    var sorted := Sort(vs, VideoPublishedKey, true);
    var n := if |vs| < RecentCount then |vs| else RecentCount;
    assert sorted == sorted[..n] + sorted[n..];
    sorted[..n]
  }

  /** The recent list is newest first, and no video left out of it was
      published after one shown (stamps compare as strings). */
  lemma RecentIsNewest(vs: seq<Video>)
    ensures SortedBy(Recent(vs), VideoPublishedKey, true)
    ensures forall i, v | 0 <= i < |Recent(vs)| && v in multiset(vs) - multiset(Recent(vs)) ::
              !LexLess(Recent(vs)[i].publishedAt, v.publishedAt)
  {
    var r := Recent(vs);
    SortIsSorted(vs, VideoPublishedKey, true);
    forall i, v | 0 <= i < |r| && v in multiset(vs) - multiset(r)
      ensures !LexLess(r[i].publishedAt, v.publishedAt)
    {
      LeftOutIsOlder(vs, i, v);
    }
  }

  lemma LeftOutIsOlder(vs: seq<Video>, i: nat, v: Video)
    requires i < |Recent(vs)| && v in multiset(vs) - multiset(Recent(vs))
    ensures !LexLess(Recent(vs)[i].publishedAt, v.publishedAt)
  {
    var sorted := Sort(vs, VideoPublishedKey, true);
    var r := Recent(vs);
    var rest := sorted[|r|..];
    assert sorted == r + rest;
    assert multiset(sorted) == multiset(r) + multiset(rest);
    assert v in multiset(rest);
    var k :| 0 <= k < |rest| && rest[k] == v;
    SortIsSorted(vs, VideoPublishedKey, true);
    assert sorted[|r| + k] == v && sorted[i] == r[i];
  }

  /** Videos with the same stamp keep their stored order: for every stamp,
      the recent list shows a prefix of the stored videos carrying it. */
  lemma RecentIsStable(vs: seq<Video>, k: Key)
    ensures WithKey(Recent(vs), VideoPublishedKey, k) <= WithKey(vs, VideoPublishedKey, k)
  {
    var sorted := Sort(vs, VideoPublishedKey, true);
    var n := |Recent(vs)|;
    assert Recent(vs) == sorted[..n];
    WithKeyPrefix(sorted, n, VideoPublishedKey, k);
    SortIsStable(vs, VideoPublishedKey, true, k);
  }
}

=== FILE: formatters.dfy ===
/** The display formatters of the portfolio page: video length as `m:ss`,
    counters with thousands separators (or "N/A"), and upload dates in
    Korean notation (or the input unchanged). */
module Formatters {
  import opened Wrappers
  import opened Text

  // ---------------------------------------------------------------------------
  // format_duration
  // ---------------------------------------------------------------------------

  /** `format_duration`: whole seconds `s` as `{s // 60}:{s % 60:02d}`; a
      duration that did not parse (`None`) shows as "0:00". Minutes are not
      capped at 59, and Python's `//` and `%` floor, as Dafny's do for a
      positive divisor. */
  function FormatDuration(seconds: Option<int>): (r: string)
    ensures 4 <= |r| && r[|r| - 3] == ':'
    ensures AllDigits(r[|r| - 2..]) && DigitsValue(r[|r| - 2..]) < 60
    ensures seconds.Some? ==> ReadIntText(r[..|r| - 3]) == Some(seconds.value / 60)
  {
    match seconds
    case None =>
      assert "0:00"[2..] == "00" && "00"[..1] == "0" && "0"[..0] == "";
      "0:00"
    case Some(s) =>
      var r := IntToString(s / 60) + ":" + Pad2(s % 60);
      assert r[|r| - 2..] == Pad2(s % 60);
      assert r[..|r| - 3] == IntToString(s / 60);
      IntTextRoundTrip(s / 60);
      r
  }

  /** Reads `m:ss` back into seconds: the minutes as `str` writes an
      integer, then two digits below 60. */
  function ReadClock(r: string): Option<int> {
    if 4 <= |r| && r[|r| - 3] == ':' && AllDigits(r[|r| - 2..]) && DigitsValue(r[|r| - 2..]) < 60 then
      match ReadIntText(r[..|r| - 3])
      case Some(m) => Some(m * 60 + DigitsValue(r[|r| - 2..]))
      case None => None
    else None
  }

  /** The minutes and seconds shown add back up to the duration:
      `m * 60 + ss == s`, for every duration, negative ones included. */
  lemma DurationRoundTrip(s: int)
    ensures ReadClock(FormatDuration(Some(s))) == Some(s)
  {
    var r := FormatDuration(Some(s));
    var m, sec := s / 60, s % 60;
    assert r[|r| - 2..] == Pad2(sec);
    assert DigitsValue(r[|r| - 2..]) == sec;
    assert ReadIntText(r[..|r| - 3]) == Some(m);
    assert m * 60 + sec == s;
  }

  /** Conversely, every text that reads back as a duration is the text that
      duration is shown as; with DurationRoundTrip, the shown text of each
      duration is the only one that reads back as it. */
  lemma ClockRoundTrip(r: string)
    requires ReadClock(r).Some?
    ensures FormatDuration(ReadClock(r)) == r
  {
    var mins := r[..|r| - 3];
    var ss := r[|r| - 2..];
    var m := ReadIntText(mins).value;
    var sec := DigitsValue(ss);
    var s := m * 60 + sec;
    assert s / 60 == m && s % 60 == sec;
    ReadIntTextExact(mins);
    Pad2OfDigits(ss);
    assert r == mins + ":" + ss;
  }

  /** A duration that failed to parse shows like a zero-length video. */
  lemma UnparsedDurationShowsZero()
    ensures FormatDuration(None) == FormatDuration(Some(0))
  {
    assert Decimal(0) == "0";
    assert Pad2(0) == "00";
  }

  // ---------------------------------------------------------------------------
  // format_stat
  // ---------------------------------------------------------------------------

  /** `format_stat`: `f"{int(val):,}"`, or "N/A" when `int` raises. The
      grouped form loses nothing: deleting its commas gives `str(int(val))`. */
  function FormatStat(val: string): (r: string)
    ensures r == "N/A" <==> PyInt(val).None?
    ensures PyInt(val).Some? ==> Remove(r, ',') == IntToString(PyInt(val).value)
    ensures PyInt(val).Some? && PyInt(val).value >= 0 ==> Grouped(r)
    ensures PyInt(val).Some? && PyInt(val).value < 0 ==> r[0] == '-' && Grouped(r[1..])
  {
    match PyInt(val)
    case None => "N/A"
    case Some(n) =>
      GroupIntShape(n);
      GroupInt(n)
  }

  lemma GroupIntShape(n: int)
    ensures GroupInt(n) != "N/A"
    ensures Remove(GroupInt(n), ',') == IntToString(n)
    ensures n >= 0 ==> Grouped(GroupInt(n))
    ensures n < 0 ==> GroupInt(n)[0] == '-' && Grouped(GroupInt(n)[1..])
  {
    var r := GroupInt(n);
    if n < 0 {
      NegativeGroupShape(-n);
    } else {
      GroupUngroups(n);
      assert IsDigit(r[0]);
    }
  }

  /** The grouped form of a negative number: a minus sign before the
      grouped magnitude, which loses its commas to `str`. */
  lemma NegativeGroupShape(m: nat)
    requires m >= 1
    ensures var r := "-" + Group(m);
            && r != "N/A" && r[0] == '-' && r[1..] == Group(m)
            && Remove(r, ',') == "-" + Decimal(m)
  {
    var r := "-" + Group(m);
    GroupUngroups(m);
    RemoveAppend("-", Group(m), ',');
    assert Remove("-", ',') == "-";
    assert r[0] != "N/A"[0];
  }

  /** `format_stat` round trip: reading the grouped counter back, commas
      removed, gives the integer the input denoted. */
  lemma FormatStatRoundTrip(val: string)
    requires PyInt(val).Some?
    ensures PyInt(Remove(FormatStat(val), ',')) == PyInt(val)
  {
    PyIntOfIntToString(PyInt(val).value);
  }

  /** An already grouped counter is not an integer literal: the stored
      default subscriber count "1,234" shows as "N/A". */
  lemma GroupedInputIsNotANumber()
    ensures FormatStat("1,234") == "N/A"
  {
    var s := "1,234";
    StripUnpadded(s);
    assert !DigitOrJoin(s, 1);
  }

  // ---------------------------------------------------------------------------
  // format_date
  // ---------------------------------------------------------------------------

  /** A calendar date as `datetime.strptime` returns it. */
  datatype Date = Date(year: nat, month: nat, day: nat)

  predicate ValidDate(d: Date) {
    1 <= d.year && 1 <= d.month <= 12 && 1 <= d.day <= 31
  }

  /** `strftime('%Y년 %m월 %d일')`. */
  function KoreanDate(d: Date): string
    requires ValidDate(d)
  {
    Decimal(d.year) + "년 " + Pad2(d.month) + "월 " + Pad2(d.day) + "일"
  }

  /** `format_date`: `parsed` is what `strptime(s, '%Y-%m-%dT%H:%M:%SZ')`
      returned, `None` when it raised. A string that does not parse is
      shown unchanged. */
  function FormatDate(s: string, parsed: Option<Date>): (r: string)
    requires parsed.Some? ==> ValidDate(parsed.value)
    ensures parsed.None? ==> r == s
    ensures parsed.Some? ==> |r| >= 10 && r[|r| - 1] == '일'
  {
    match parsed
    case None => s
    case Some(d) => KoreanDate(d)
  }

  /** Reads the Korean notation back into a date. */
  function ReadKoreanDate(r: string): Option<Date> {
    if |r| < 10 then None
    else
      var y := r[..|r| - 9];
      var t := r[|r| - 9..];
      if t[..2] == "년 " && t[4..6] == "월 " && t[8] == '일'
         && AllDigits(y) && AllDigits(t[2..4]) && AllDigits(t[6..8])
      then Some(Date(DigitsValue(y), DigitsValue(t[2..4]), DigitsValue(t[6..8])))
      else None
  }

  /** The Korean notation of a parsed date loses nothing. */
  lemma FormatDateRoundTrip(s: string, d: Date)
    requires ValidDate(d)
    ensures ReadKoreanDate(FormatDate(s, Some(d))) == Some(d)
  {
    var r := FormatDate(s, Some(d));
    var y := Decimal(d.year);
    assert r[..|r| - 9] == y;
    var t := r[|r| - 9..];
    assert t == "년 " + Pad2(d.month) + "월 " + Pad2(d.day) + "일";
    assert t[2..4] == Pad2(d.month) && t[6..8] == Pad2(d.day);
    DecimalValue(d.year);
  }
}

=== FILE: portfolio.dfy ===
/** The portfolio page put together: the channel header, taken from the API
    when it answers and from the stored document otherwise, and the video
    section, built from the search listing when it has videos and from the
    stored sample videos otherwise. */
module Portfolio {
  import opened Wrappers
  import opened Text
  import opened Upstream
  import opened Formatters
  import opened Catalog
  import opened ChannelData

  /** The raw header values: title, description and the three counters. */
  datatype Header = Header(
    title: string,
    description: string,
    subscriberCount: string,
    videoCount: string,
    viewCount: string)

  /** The header values. A channel from the API wins, with "Haneul CCM", ""
      and "0" for missing fields; otherwise the stored `channel_info` is
      read, and a missing key raises `KeyError` (`None`). */
  function ChannelHeader(api: Option<ApiChannel>, stored: map<string, string>): (r: Option<Header>)
    ensures api.Some? ==> r.Some?
    ensures api.Some? ==> r.value.title == api.value.title.GetOr(DefaultTitle)
    ensures api.Some? ==> r.value.description == api.value.description.GetOr("")
    ensures api.Some? ==> r.value.subscriberCount == api.value.subscriberCount.GetOr("0")
    ensures api.Some? ==> r.value.videoCount == api.value.videoCount.GetOr("0")
    ensures api.Some? ==> r.value.viewCount == api.value.viewCount.GetOr("0")
    ensures api.None? ==> (r.Some? <==> HasHeaderKeys(stored))
    ensures api.None? && r.Some? ==>
              && r.value.title == stored["title"] && r.value.description == stored["description"]
              && r.value.subscriberCount == stored["subscriber_count"]
              && r.value.videoCount == stored["video_count"] && r.value.viewCount == stored["view_count"]
  {
    match api
    case Some(c) =>
      Some(Header(c.title.GetOr(DefaultTitle), c.description.GetOr(""),
                  c.subscriberCount.GetOr("0"), c.videoCount.GetOr("0"), c.viewCount.GetOr("0")))
    case None =>
      if HasHeaderKeys(stored) then
        Some(Header(stored["title"], stored["description"], stored["subscriber_count"],
                    stored["video_count"], stored["view_count"]))
      else None
  }

  const DescriptionPlaceholder: string := "채널 소개글을 작성해 주세요."

  /** The header as displayed: counters through `format_stat`, and a
      placeholder for an empty description. */
  datatype HeaderView = HeaderView(
    title: string,
    description: string,
    subscribers: string,
    videos: string,
    views: string)

  function ShowHeader(h: Header): (v: HeaderView)
    ensures v.title == h.title
    ensures v.description == DescriptionPlaceholder <==> h.description == "" || h.description == DescriptionPlaceholder
    ensures v.subscribers == "N/A" <==> PyInt(h.subscriberCount).None?
    ensures v.videos == "N/A" <==> PyInt(h.videoCount).None?
    ensures v.views == "N/A" <==> PyInt(h.viewCount).None?
    ensures PyInt(h.subscriberCount).Some? ==> v.subscribers == FormatStat(h.subscriberCount)
    ensures PyInt(h.videoCount).Some? ==> v.videos == FormatStat(h.videoCount)
    ensures PyInt(h.viewCount).Some? ==> v.views == FormatStat(h.viewCount)
    ensures h.description != "" ==> v.description == h.description
  {
    HeaderView(h.title, if h.description != "" then h.description else DescriptionPlaceholder,
               FormatStat(h.subscriberCount), FormatStat(h.videoCount), FormatStat(h.viewCount))
  }

  /** On a first start, with no data file and no answer from the API, the
      header shows the default title and description, "N/A" subscribers
      (the stored "1,234" is not an integer literal) and zero videos and
      views. */
  lemma ColdStartHeader(now: string)
    ensures var h := ChannelHeader(None, LoadChannelData(None, now).channelInfo);
            && h.Some?
            && ShowHeader(h.value) == HeaderView(DefaultTitle, DefaultDescription, "N/A", "0", "0")
  {
    var h := ChannelHeader(None, LoadChannelData(None, now).channelInfo).value;
    assert h.subscriberCount == "1,234";
    GroupedInputIsNotANumber();
    PyIntOfDigits("0");
    assert GroupInt(0) == "0";
  }

  // ---------------------------------------------------------------------------
  // Video section
  // ---------------------------------------------------------------------------

  /** What the video section shows: the arranged listing, the stored sample
      videos when the search gave no videos, or an uncaught exception. */
  datatype VideoSection = Arranged(listing: Listing) | Samples(videos: seq<Video>) | Crashed

  /** The like count a card shows: the statistics counter of the entry's
      details, "0" when the details or the counter are missing. */
  function LikeCountText(e: Entry): string {
    match e.details
    case None => "0"
    case Some(d) => d.likeCount.GetOr("0")
  }

  /** Every card's `int(view_count)` and `int(like_count)` succeed. */
  predicate CardsRender(es: seq<Entry>) {
    forall i :: 0 <= i < |es| ==> PyInt(ViewCountText(es[i])).Some? && PyInt(LikeCountText(es[i])).Some?
  }

  /** The ids of the search results, in order. */
  function VideoIds(videos: seq<SearchResult>): (ids: seq<string>)
    ensures |ids| == |videos| && forall i :: 0 <= i < |ids| ==> ids[i] == videos[i].videoId
  {
    seq(|videos|, i requires 0 <= i < |videos| => videos[i].videoId)
  }

  /** The video section from the three request scripts: the channel search,
      the detail lookups (one reply per batch of ids) and the podcast
      playlist, with the sort order and the search term of the sidebar. */
  function VideoSectionOf(search: seq<Response<Page<SearchResult>>>,
                          detailReplies: seq<Response<seq<VideoDetail>>>,
                          playlist: seq<Response<Page<PlaylistItem>>>,
                          term: string, order: SortOrder, stored: Document): (s: VideoSection)
    ensures Paginate(search) == [] <==> s.Samples?
    ensures s.Samples? ==> s.videos == stored.videos
    ensures s.Arranged? ==> CardsRender(s.listing.regular) && CardsRender(s.listing.shorts)
    ensures s.Arranged? ==> s.listing.podcasts == Paginate(playlist)
    ensures var videos := Paginate(search);
            var l := ArrangeVideos(videos, VideoDetails(VideoIds(videos), detailReplies), Paginate(playlist), term, order);
            (videos != [] && l.Some? && CardsRender(l.value.regular) && CardsRender(l.value.shorts))
              ==> s == Arranged(l.value)
    ensures var videos := Paginate(search);
            var l := ArrangeVideos(videos, VideoDetails(VideoIds(videos), detailReplies), Paginate(playlist), term, order);
            s.Crashed? <==> videos != [] && !(l.Some? && CardsRender(l.value.regular) && CardsRender(l.value.shorts))
  {
    var videos := Paginate(search);
    if videos == [] then Samples(stored.videos)
    else
      var details := VideoDetails(VideoIds(videos), detailReplies);
      match ArrangeVideos(videos, details, Paginate(playlist), term, order)
      case None => Crashed
      case Some(l) =>
        if CardsRender(l.regular) && CardsRender(l.shorts) then Arranged(l) else Crashed
  }

  /** When the first search request raises or is refused, the page falls
      back on the stored videos, whatever the other requests return. */
  lemma SearchDownShowsSamples(search: seq<Response<Page<SearchResult>>>,
                               detailReplies: seq<Response<seq<VideoDetail>>>,
                               playlist: seq<Response<Page<PlaylistItem>>>,
                               term: string, order: SortOrder, stored: Document)
    requires search == [] || search[0].Raised? || (search[0].Answered? && search[0].status != 200)
    ensures VideoSectionOf(search, detailReplies, playlist, term, order, stored) == Samples(stored.videos)
  {
  }

  /** A listed section holds every fetched video of its kind that is not a
      podcast episode and matches the search, each once per occurrence in
      the search results, and nothing else. */
  lemma ListedSectionContents(search: seq<Response<Page<SearchResult>>>,
                              detailReplies: seq<Response<seq<VideoDetail>>>,
                              playlist: seq<Response<Page<PlaylistItem>>>,
                              term: string, order: SortOrder, stored: Document, x: Entry)
    requires VideoSectionOf(search, detailReplies, playlist, term, order, stored).Arranged?
    ensures var l := VideoSectionOf(search, detailReplies, playlist, term, order, stored).listing;
            var videos := Paginate(search);
            var es := Pair(videos, VideoDetails(VideoIds(videos), detailReplies));
            var ids := PodcastIds(Paginate(playlist));
            && multiset(l.regular)[x] == (if Listed(x, ids, term, false) then multiset(es)[x] else 0)
            && multiset(l.shorts)[x] == (if Listed(x, ids, term, true) then multiset(es)[x] else 0)
  {
    var videos := Paginate(search);
    ArrangeVideosContents(videos, VideoDetails(VideoIds(videos), detailReplies), Paginate(playlist), term, order, x);
  }
}

=== FILE: seqs.dfy ===
/** Order-preserving sequence operations: concatenation of a sequence of
    sequences and Python's list-comprehension filter `[x for x in s if p(x)]`. */
module Seqs {

  /** Concatenation of all parts, in order. */
  function Flatten<T>(parts: seq<seq<T>>): seq<T> {
    if parts == [] then [] else parts[0] + Flatten(parts[1..])
  }

  /** `a` can be obtained from `b` by deleting elements: the elements of `a`
      occur in `b` in the same relative order. */
  predicate IsSubsequence<T(==)>(a: seq<T>, b: seq<T>)
    decreases |b|
  {
    a == [] ||
    (b != [] && ((a[0] == b[0] && IsSubsequence(a[1..], b[1..])) || IsSubsequence(a, b[1..])))
  }

  /** `[x for x in s if p(x)]`: keeps exactly the elements satisfying `p`,
      each as often as it occurs in `s`, in their original order. */
  function Filter<T(==)>(s: seq<T>, p: T -> bool): (r: seq<T>)
    ensures |r| <= |s|
    ensures forall i :: 0 <= i < |r| ==> p(r[i])
    ensures multiset(r) <= multiset(s)
    ensures forall x | x in s && p(x) :: multiset(r)[x] == multiset(s)[x]
    ensures IsSubsequence(r, s)
  {
    if s == [] then []
    else
      var rest := Filter(s[1..], p);
      assert s == [s[0]] + s[1..];
      if p(s[0]) then [s[0]] + rest else rest
  }

  /** Filtering distributes over concatenation. */
  lemma {:induction false} FilterAppend<T>(a: seq<T>, b: seq<T>, p: T -> bool)
    ensures Filter(a + b, p) == Filter(a, p) + Filter(b, p)
  {
    if a == [] {
      assert a + b == b;
    } else {
      assert (a + b)[0] == a[0] && (a + b)[1..] == a[1..] + b;
      FilterAppend(a[1..], b, p);
    }
  }

  /** Filtering a sequence extended by one element. */
  lemma FilterSnoc<T>(s: seq<T>, x: T, p: T -> bool)
    ensures Filter(s + [x], p) == Filter(s, p) + (if p(x) then [x] else [])
  {
    FilterAppend(s, [x], p);
    assert [x][1..] == [];
  }

  /** How often `x` survives the filter. */
  lemma FilterCount<T>(s: seq<T>, p: T -> bool, x: T)
    ensures multiset(Filter(s, p))[x] == if p(x) then multiset(s)[x] else 0
  {
    var r := Filter(s, p);
    if !p(x) {
      assert forall i :: 0 <= i < |r| ==> r[i] != x;
    }
  }
}

=== FILE: sorting.dfy ===
/** Python's `list.sort(key=..., reverse=...)` and `sorted(...)`: a stable
    sort by a key, ascending or descending. Keys are integers (`int(...)`)
    or strings (compared code point by code point). A stable sort with
    `reverse=True` still keeps elements with equal keys in their original
    order; that is what `Before` expresses: `x` must precede `y` only when
    their keys differ in the requested direction. */
module Sorting {
  import opened Text

  datatype Key = Num(n: int) | Str(s: string)

  /** A strict total order on keys; the keys of one sort are all of one kind. */
  predicate KeyLess(a: Key, b: Key) {
    match (a, b)
    case (Num(x), Num(y)) => x < y
    case (Str(x), Str(y)) => LexLess(x, y)
    case (Num(_), Str(_)) => true
    case (Str(_), Num(_)) => false
  }

  lemma KeyIrreflexive(a: Key)
    ensures !KeyLess(a, a)
  {
    if a.Str? {
      LexIrreflexive(a.s);
    }
  }

  lemma KeyTransitive(a: Key, b: Key, c: Key)
    requires KeyLess(a, b) && KeyLess(b, c)
    ensures KeyLess(a, c)
  {
    if a.Str? && b.Str? && c.Str? {
      LexTransitive(a.s, b.s, c.s);
    }
  }

  lemma KeyTotal(a: Key, b: Key)
    ensures a == b || KeyLess(a, b) || KeyLess(b, a)
  {
    if a.Str? && b.Str? {
      LexTotal(a.s, b.s);
    }
  }

  /** `x` must come strictly before `y` in the sorted output. */
  predicate Before<E>(key: E -> Key, descending: bool, x: E, y: E) {
    if descending then KeyLess(key(y), key(x)) else KeyLess(key(x), key(y))
  }

  lemma BeforeAsymmetric<E>(key: E -> Key, descending: bool, x: E, y: E)
    requires Before(key, descending, x, y)
    ensures !Before(key, descending, y, x) && key(x) != key(y)
  {
    KeyIrreflexive(key(x));
    if KeyLess(key(x), key(y)) && KeyLess(key(y), key(x)) {
      KeyTransitive(key(x), key(y), key(x));
    }
  }

  /** "Not before" is transitive: the order is a strict weak order. */
  lemma NotBeforeTransitive<E>(key: E -> Key, descending: bool, a: E, b: E, c: E)
    requires !Before(key, descending, a, b) && !Before(key, descending, b, c)
    ensures !Before(key, descending, a, c)
  {
    KeyTotal(key(a), key(b));
    KeyTotal(key(b), key(c));
    if Before(key, descending, a, c) {
      if descending {
        if KeyLess(key(b), key(a)) {
          KeyTransitive(key(c), key(b), key(a));
        } else if key(a) == key(b) {
        } else {
          KeyTransitive(key(c), key(a), key(b));
        }
      } else {
        if KeyLess(key(a), key(b)) {
        } else if key(a) == key(b) {
        } else {
          KeyTransitive(key(b), key(a), key(c));
        }
      }
    }
  }

  /** Every element that comes later is not required to come earlier. */
  predicate SortedBy<E>(s: seq<E>, key: E -> Key, descending: bool) {
    forall i, j :: 0 <= i < j < |s| ==> !Before(key, descending, s[j], s[i])
  }

  /** Places `x` after the elements that must precede it and before all
      others, in particular before the elements whose key equals its own. */
  function Insert<E(==)>(x: E, t: seq<E>, key: E -> Key, descending: bool): (r: seq<E>)
    ensures |r| == |t| + 1
    ensures multiset(r) == multiset(t) + multiset{x}
    ensures forall i :: 0 <= i < |r| ==> r[i] == x || r[i] in t
  {
    if t == [] then [x]
    else if Before(key, descending, t[0], x) then
      var rest := Insert(x, t[1..], key, descending);
      assert t == [t[0]] + t[1..];
      [t[0]] + rest
    else [x] + t
  }

  /** Insertion sort, stable: the result is a permutation of `s`. */
  function Sort<E(==)>(s: seq<E>, key: E -> Key, descending: bool): (r: seq<E>)
    ensures |r| == |s|
    ensures multiset(r) == multiset(s)
  {
    if s == [] then []
    else
      assert s == [s[0]] + s[1..];
      Insert(s[0], Sort(s[1..], key, descending), key, descending)
  }

  lemma {:induction false} InsertSorted<E>(x: E, t: seq<E>, key: E -> Key, descending: bool)
    requires SortedBy(t, key, descending)
    ensures SortedBy(Insert(x, t, key, descending), key, descending)
  {
    var r := Insert(x, t, key, descending);
    if t == [] {
    } else if Before(key, descending, t[0], x) {
      var rest := Insert(x, t[1..], key, descending);
      assert SortedBy(t[1..], key, descending);
      InsertSorted(x, t[1..], key, descending);
      BeforeAsymmetric(key, descending, t[0], x);
      forall j | 0 <= j < |rest| ensures !Before(key, descending, rest[j], t[0]) {
        if rest[j] != x {
          var m :| 0 <= m < |t[1..]| && t[1..][m] == rest[j];
          assert t[1 + m] == rest[j];
        }
      }
      assert r == [t[0]] + rest;
    } else {
      forall j | 0 <= j < |t| ensures !Before(key, descending, t[j], x) {
        if j > 0 {
          NotBeforeTransitive(key, descending, t[j], t[0], x);
        }
      }
      assert r == [x] + t;
    }
  }

  /** The sorted output is in order. */
  lemma {:induction false} SortIsSorted<E>(s: seq<E>, key: E -> Key, descending: bool)
    ensures SortedBy(Sort(s, key, descending), key, descending)
  {
    if s != [] {
      SortIsSorted(s[1..], key, descending);
      InsertSorted(s[0], Sort(s[1..], key, descending), key, descending);
    }
  }

  /** The elements of `s` whose key is `k`, in order. */
  function WithKey<E>(s: seq<E>, key: E -> Key, k: Key): seq<E> {
    if s == [] then [] else (if key(s[0]) == k then [s[0]] else []) + WithKey(s[1..], key, k)
  }

  lemma WithKeyCons<E>(y: E, s: seq<E>, key: E -> Key, k: Key)
    ensures WithKey([y] + s, key, k) == (if key(y) == k then [y] else []) + WithKey(s, key, k)
  {
    assert ([y] + s)[0] == y && ([y] + s)[1..] == s;
  }

  lemma {:induction false} InsertWithKey<E>(x: E, t: seq<E>, key: E -> Key, descending: bool, k: Key)
    ensures WithKey(Insert(x, t, key, descending), key, k)
         == (if key(x) == k then [x] else []) + WithKey(t, key, k)
  {
    if t == [] {
      WithKeyCons(x, [], key, k);
    } else if Before(key, descending, t[0], x) {
      InsertWithKey(x, t[1..], key, descending, k);
      InsertAfterHead(x, t, key, descending, k);
    } else {
      WithKeyCons(x, t, key, k);
    }
  }

  /** The step of InsertWithKey where `x` moves past the head of `t`. */
  lemma InsertAfterHead<E>(x: E, t: seq<E>, key: E -> Key, descending: bool, k: Key)
    requires t != [] && Before(key, descending, t[0], x)
    requires WithKey(Insert(x, t[1..], key, descending), key, k)
          == (if key(x) == k then [x] else []) + WithKey(t[1..], key, k)
    ensures WithKey(Insert(x, t, key, descending), key, k)
         == (if key(x) == k then [x] else []) + WithKey(t, key, k)
  {
    var rest := Insert(x, t[1..], key, descending);
    var w := WithKey(t[1..], key, k);
    BeforeAsymmetric(key, descending, t[0], x);
    assert Insert(x, t, key, descending) == [t[0]] + rest;
    WithKeyCons(t[0], rest, key, k);
    WithKeyCons(t[0], t[1..], key, k);
    assert t == [t[0]] + t[1..];
    if key(x) == k {
      assert WithKey(t, key, k) == w;
    } else if key(t[0]) == k {
      assert WithKey(rest, key, k) == w;
    }
  }

  /** Stability: for every key, the elements carrying it appear in the
      output in the same order as in the input. */
  lemma {:induction false} SortIsStable<E>(s: seq<E>, key: E -> Key, descending: bool, k: Key)
    ensures WithKey(Sort(s, key, descending), key, k) == WithKey(s, key, k)
  {
    if s != [] {
      SortIsStable(s[1..], key, descending, k);
      InsertWithKey(s[0], Sort(s[1..], key, descending), key, descending, k);
    }
  }

  /** Cutting a sequence short cuts each key's subsequence short: the
      elements of a prefix that carry `k` are a prefix of those of the whole. */
  lemma {:induction false} WithKeyPrefix<E>(s: seq<E>, n: nat, key: E -> Key, k: Key)
    requires n <= |s|
    ensures WithKey(s[..n], key, k) <= WithKey(s, key, k)
  {
    if n > 0 {
      WithKeyPrefix(s[1..], n - 1, key, k);
      assert s[..n] == [s[0]] + s[1..][..n - 1];
      assert s == [s[0]] + s[1..];
      WithKeyCons(s[0], s[1..][..n - 1], key, k);
      WithKeyCons(s[0], s[1..], key, k);
    }
  }
}

=== FILE: text.dfy ===
/** String helpers shared by the formatters, the catalog filters and the
    stored-catalog statistics: ASCII digits and decimal notation, Python's
    `int(str)` on ASCII input, thousands grouping (`f"{n:,}"`),
    `str.replace(c, "")`, ASCII `str.lower()`, substring search (`in`)
    and Python's code-point string ordering. */
module Text {
  import opened Wrappers

  // ---------------------------------------------------------------------------
  // Digits and decimal notation
  // ---------------------------------------------------------------------------

  predicate IsDigit(c: char) {
    '0' <= c <= '9'
  }

  predicate AllDigits(s: string) {
    forall i :: 0 <= i < |s| ==> IsDigit(s[i])
  }

  function DigitValue(c: char): (d: nat)
    requires IsDigit(c)
    ensures d < 10
  {
    (c as int) - ('0' as int)
  }

  function DigitChar(d: nat): (c: char)
    requires d < 10
    ensures IsDigit(c) && DigitValue(c) == d
  {
    (('0' as int) + d) as char
  }

  /** Python's `str(n)` for a non-negative integer. */
  function Decimal(n: nat): (s: string)
    ensures 1 <= |s| && AllDigits(s)
    ensures s[0] == '0' <==> n == 0
    ensures |s| == 1 <==> n < 10
    ensures n < 100 ==> |s| <= 2
    ensures n < 1000 ==> |s| <= 3
  {
    if n < 10 then [DigitChar(n)] else Decimal(n / 10) + [DigitChar(n % 10)]
  }

  /** The number a string of ASCII digits denotes (leading zeros allowed). */
  function DigitsValue(s: string): nat
    requires AllDigits(s)
  {
    if s == [] then 0 else DigitsValue(s[..|s| - 1]) * 10 + DigitValue(s[|s| - 1])
  }

  /** A digit string as `str(n)` produces it: non-empty, no leading zero. */
  predicate Canonical(s: string) {
    1 <= |s| && AllDigits(s) && (s[0] == '0' ==> |s| == 1)
  }

  /** Reading back what `Decimal` wrote gives the number. */
  lemma {:induction false} DecimalValue(n: nat)
    ensures DigitsValue(Decimal(n)) == n
  {
    if n >= 10 {
      var s := Decimal(n);
      assert s[..|s| - 1] == Decimal(n / 10);
      DecimalValue(n / 10);
    }
  }

  lemma {:induction false} LeadingDigitPositive(s: string)
    requires 1 <= |s| && AllDigits(s) && s[0] != '0'
    ensures DigitsValue(s) >= 1
  {
    if |s| > 1 {
      LeadingDigitPositive(s[..|s| - 1]);
    }
  }

  /** Writing back what was read gives the string, for canonical strings:
      together with DecimalValue, `Decimal` is a bijection between the
      naturals and the canonical digit strings. */
  lemma {:induction false} CanonicalDecimal(s: string)
    requires Canonical(s)
    ensures Decimal(DigitsValue(s)) == s
  {
    var p := s[..|s| - 1];
    var c := s[|s| - 1];
    if |s| == 1 {
      assert DigitChar(DigitValue(c)) == c;
    } else {
      assert Canonical(p);
      CanonicalDecimal(p);
      LeadingDigitPositive(p);
      DecimalStep(DigitsValue(p), DigitValue(c));
      assert DigitChar(DigitValue(c)) == c;
      assert s == p + [c];
    }
  }

  /** Appending one digit to a positive number appends it to its notation. */
  lemma DecimalStep(a: nat, d: nat)
    requires 1 <= a && d < 10
    ensures Decimal(a * 10 + d) == Decimal(a) + [DigitChar(d)]
  {
    var n := a * 10 + d;
    assert n / 10 == a && n % 10 == d;
  }

  /** Python's `str(i)` for any integer. */
  function IntToString(i: int): (s: string)
    ensures 1 <= |s|
  {
    if i < 0 then "-" + Decimal(-i) else Decimal(i)
  }

  /** Python's `f"{n:02d}"` for `0 <= n < 100`. */
  function Pad2(n: nat): (s: string)
    requires n < 100
    ensures |s| == 2 && AllDigits(s) && DigitsValue(s) == n
  {
    var s := [DigitChar(n / 10), DigitChar(n % 10)];
    assert s[..1] == [DigitChar(n / 10)] && s[..1][..0] == [];
    assert DigitsValue(s[..1]) == n / 10;
    s
  }

  /** Three-digit zero-padded notation, the groups after a thousands comma:
      the hundreds digit, then the last two digits padded. */
  function Pad3(n: nat): (s: string)
    requires n < 1000
    ensures |s| == 3 && AllDigits(s)
  {
    [DigitChar(n / 100)] + Pad2(n % 100)
  }

  /** A positive number's notation followed by a three-digit group is the
      notation of the number times one thousand plus the group. */
  lemma DecimalSplit(q: nat, r: nat)
    requires 1 <= q && r < 1000
    ensures Decimal(q * 1000 + r) == Decimal(q) + Pad3(r)
  {
    var a, t := r / 100, r % 100;
    var hi := q * 10 + a;
    assert q * 1000 + r == hi * 100 + t;
    DecimalStep(q, a);
    DecimalTwo(hi, t);
  }

  /** Two more digits: the notation of `q * 100 + t` for `t < 100`. */
  lemma DecimalTwo(q: nat, t: nat)
    requires 1 <= q && t < 100
    ensures Decimal(q * 100 + t) == Decimal(q) + Pad2(t)
  {
    var a, b := t / 10, t % 10;
    var hi := q * 10 + a;
    assert q * 100 + t == hi * 10 + b;
    DecimalStep(q, a);
    DecimalStep(hi, b);
    assert Pad2(t) == [DigitChar(a)] + [DigitChar(b)];
  }

  // ---------------------------------------------------------------------------
  // Thousands grouping: f"{n:,}"
  // ---------------------------------------------------------------------------

  /** One to three digits, then any number of `,ddd` groups. */
  predicate Grouped(s: string)
    decreases |s|
  {
    if |s| <= 3 then 1 <= |s| && AllDigits(s)
    else |s| >= 5 && s[|s| - 4] == ',' && AllDigits(s[|s| - 3..]) && Grouped(s[..|s| - 4])
  }

  /** Python's `f"{n:,}"` for a non-negative integer. */
  function Group(n: nat): (s: string)
    ensures Grouped(s) && IsDigit(s[0])
  {
    if n < 1000 then Decimal(n)
    else
      var g := Group(n / 1000);
      var p := Pad3(n % 1000);
      var s := g + "," + p;
      assert |s| == |g| + 4 && s[0] == g[0] && s[|s| - 4] == ',';
      assert s[|s| - 3..] == p;
      assert s[..|s| - 4] == g;
      s
  }

  /** Python's `f"{i:,}"` for any integer. */
  function GroupInt(i: int): string {
    if i < 0 then "-" + Group(-i) else Group(i)
  }

  /** Python's `s.replace(c, "")`. */
  function Remove(s: string, c: char): (r: string)
    ensures |r| <= |s|
    ensures forall x :: x in r ==> x in s && x != c
  {
    if s == [] then []
    else
      var rest := Remove(s[1..], c);
      assert forall x :: x in s[1..] ==> x in s;
      (if s[0] == c then [] else [s[0]]) + rest
  }

  lemma {:induction false} RemoveAppend(a: string, b: string, c: char)
    ensures Remove(a + b, c) == Remove(a, c) + Remove(b, c)
  {
    if a == [] {
      assert a + b == b;
    } else {
      assert (a + b)[0] == a[0] && (a + b)[1..] == a[1..] + b;
      RemoveAppend(a[1..], b, c);
    }
  }

  lemma {:induction false} RemoveAbsent(s: string, c: char)
    requires c !in s
    ensures Remove(s, c) == s
  {
    if s != [] {
      RemoveAbsent(s[1..], c);
    }
  }

  /** Deleting the commas of the grouped notation gives back the plain
      notation: grouping only inserts separators. */
  lemma {:induction false} GroupUngroups(n: nat)
    ensures Remove(Group(n), ',') == Decimal(n)
  {
    if n < 1000 {
      RemoveAbsent(Decimal(n), ',');
    } else {
      var q, r := n / 1000, n % 1000;
      assert Group(n) == Group(q) + "," + Pad3(r);
      assert n == q * 1000 + r;
      GroupUngroups(q);
      RemoveAppend(Group(q) + ",", Pad3(r), ',');
      RemoveAppend(Group(q), ",", ',');
      RemoveAbsent(Pad3(r), ',');
      assert Remove(",", ',') == [];
      DecimalSplit(q, r);
    }
  }

  // ---------------------------------------------------------------------------
  // Python's int(str), ASCII input
  // ---------------------------------------------------------------------------

  /** The ASCII characters Python's `str.isspace` accepts. */
  predicate IsSpace(c: char) {
    c == ' ' || (9 <= c as int <= 13) || (28 <= c as int <= 31)
  }

  function StripStart(s: string): (r: string)
    ensures |r| <= |s|
  {
    if s != [] && IsSpace(s[0]) then StripStart(s[1..]) else s
  }

  function StripEnd(s: string): (r: string)
    ensures |r| <= |s|
  {
    if s != [] && IsSpace(s[|s| - 1]) then StripEnd(s[..|s| - 1]) else s
  }

  /** Python's `str.strip()`. */
  function Strip(s: string): string {
    StripEnd(StripStart(s))
  }

  /** Digits, with single underscores allowed between two digits. */
  predicate DigitsWithUnderscores(u: string) {
    1 <= |u| && forall i {:trigger DigitOrJoin(u, i)} :: 0 <= i < |u| ==> DigitOrJoin(u, i)
  }

  /** Position `i` holds a digit, or an underscore between two digits. */
  predicate DigitOrJoin(u: string, i: nat)
    requires i < |u|
  {
    IsDigit(u[i]) || (u[i] == '_' && 0 < i < |u| - 1 && IsDigit(u[i + 1]))
  }

  lemma DigitsAfterUnderscores(u: string)
    requires DigitsWithUnderscores(u)
    ensures AllDigits(Remove(u, '_'))
  {
    var d := Remove(u, '_');
    forall i | 0 <= i < |d| ensures IsDigit(d[i]) {
      assert d[i] in d;
      var j :| 0 <= j < |u| && u[j] == d[i];
      assert DigitOrJoin(u, j);
    }
  }

  function UnsignedValue(u: string): nat
    requires DigitsWithUnderscores(u)
  {
    DigitsAfterUnderscores(u);
    DigitsValue(Remove(u, '_'))
  }

  /** Python's `int(s)` in base ten: surrounding whitespace, an optional
      sign, then digits with single underscores between them; anything else
      raises `ValueError`, modelled as `None`. */
  function PyInt(s: string): Option<int> {
    ReadSigned(Strip(s))
  }

  /** What `int` reads once the surrounding whitespace is gone. */
  function ReadSigned(t: string): Option<int> {
    if |t| > 0 && (t[0] == '+' || t[0] == '-') then
      if DigitsWithUnderscores(t[1..]) then
        var v: int := UnsignedValue(t[1..]);
        Some(if t[0] == '-' then -v else v)
      else None
    else if DigitsWithUnderscores(t) then Some(UnsignedValue(t))
    else None
  }

  lemma StripUnpadded(s: string)
    requires s != [] && !IsSpace(s[0]) && !IsSpace(s[|s| - 1])
    ensures Strip(s) == s && PyInt(s) == ReadSigned(s)
  {
  }

  lemma UnsignedOfDigits(t: string)
    requires 1 <= |t| && AllDigits(t)
    ensures DigitsWithUnderscores(t) && UnsignedValue(t) == DigitsValue(t)
  {
    RemoveAbsent(t, '_');
  }

  /** On a non-empty string of ASCII digits `int` does not raise and reads
      the digits. */
  lemma PyIntOfDigits(t: string)
    requires 1 <= |t| && AllDigits(t)
    ensures PyInt(t) == Some(DigitsValue(t))
  {
    StripUnpadded(t);
    UnsignedOfDigits(t);
  }

  /** `int(str(i)) == i`. */
  lemma PyIntOfIntToString(i: int)
    ensures PyInt(IntToString(i)) == Some(i)
  {
    if i < 0 {
      PyIntOfNegativeDecimal(-i);
    } else {
      PyIntOfDigits(Decimal(i));
      DecimalValue(i);
    }
  }

  /** `int` reads `str` of a negative number back. */
  lemma PyIntOfNegativeDecimal(n: nat)
    requires n >= 1
    ensures PyInt("-" + Decimal(n)) == Some(-(n as int))
  {
    var d := Decimal(n);
    DecimalIsCanonical(n);
    var s := "-" + d;
    assert s[0] == '-' && s[1..] == d;
    PyIntOfNegative(s);
  }

  /** A minus sign before ASCII digits reads as the negated digits. */
  lemma PyIntOfNegative(s: string)
    requires 2 <= |s| && s[0] == '-' && AllDigits(s[1..])
    ensures PyInt(s) == Some(-(DigitsValue(s[1..]) as int))
  {
    assert !IsSpace(s[|s| - 1]) by {
      assert s[|s| - 1] == s[1..][|s| - 2];
    }
    StripUnpadded(s);
    UnsignedOfDigits(s[1..]);
    ReadMinus(s);
  }

  /** A minus sign before digits and underscores reads as their negation. */
  lemma ReadMinus(t: string)
    requires 2 <= |t| && t[0] == '-' && DigitsWithUnderscores(t[1..])
    ensures ReadSigned(t) == Some(-(UnsignedValue(t[1..]) as int))
  {
  }

  // ---------------------------------------------------------------------------
  // Case folding, substring search and string ordering
  // ---------------------------------------------------------------------------

  function LowerChar(c: char): char {
    if 'A' <= c <= 'Z' then ((c as int) + 32) as char else c
  }

  /** Python's `str.lower()` on ASCII letters. */
  function Lower(s: string): (r: string)
    ensures |r| == |s|
  {
    seq(|s|, i requires 0 <= i < |s| => LowerChar(s[i]))
  }

  predicate OccursAt(hay: string, needle: string, i: nat) {
    i + |needle| <= |hay| && hay[i..i + |needle|] == needle
  }

  /** Python's `needle in hay` for strings. */
  predicate Contains(hay: string, needle: string) {
    exists i | 0 <= i <= |hay| - |needle| :: OccursAt(hay, needle, i)
  }

  /** Python's `a < b` on strings: code-point lexicographic order, a proper
      prefix sorting first. */
  predicate LexLess(a: string, b: string)
    decreases |a|
  {
    if a == [] then b != []
    else if b == [] then false
    else if a[0] < b[0] then true
    else a[0] == b[0] && LexLess(a[1..], b[1..])
  }

  lemma {:induction false} LexIrreflexive(a: string)
    ensures !LexLess(a, a)
  {
    if a != [] {
      LexIrreflexive(a[1..]);
    }
  }

  lemma {:induction false} LexTransitive(a: string, b: string, c: string)
    requires LexLess(a, b) && LexLess(b, c)
    ensures LexLess(a, c)
  {
    if a != [] && a[0] == b[0] && b[0] == c[0] {
      LexTransitive(a[1..], b[1..], c[1..]);
    }
  }

  lemma {:induction false} LexTotal(a: string, b: string)
    ensures a == b || LexLess(a, b) || LexLess(b, a)
  {
    if a != [] && b != [] && a[0] == b[0] {
      LexTotal(a[1..], b[1..]);
      if a[1..] == b[1..] {
        assert a == [a[0]] + a[1..] && b == [b[0]] + b[1..];
      }
    }
  }

  // ---------------------------------------------------------------------------
  // Reading back what `str` writes
  // ---------------------------------------------------------------------------

  /** Reads back exactly the strings `str(i)` writes: a canonical digit
      run, or a minus sign before a canonical run other than "0". Anything
      else (leading zeros, a plus sign, blanks, underscores) is `None`. */
  function ReadIntText(t: string): Option<int> {
    if Canonical(t) then Some(DigitsValue(t))
    else if 2 <= |t| && t[0] == '-' && Canonical(t[1..]) && t[1..] != "0" then Some(-(DigitsValue(t[1..]) as int))
    else None
  }

  /** What `Decimal` writes is canonical, reads back as the number, and is
      "0" only for zero. */
  lemma DecimalIsCanonical(n: nat)
    ensures var d := Decimal(n);
            && Canonical(d) && AllDigits(d) && 1 <= |d| && DigitsValue(d) == n && (d == "0" <==> n == 0)
  {
    DecimalValue(n);
  }

  /** `str(i)` is read back as `i`. */
  lemma IntTextRoundTrip(i: int)
    ensures ReadIntText(IntToString(i)) == Some(i)
  {
    if i < 0 {
      var d := Decimal(-i);
      DecimalIsCanonical(-i);
      var s := "-" + d;
      assert s[0] == '-' && s[1..] == d && !IsDigit(s[0]);
    } else {
      DecimalIsCanonical(i);
    }
  }

  /** A string `ReadIntText` accepts is exactly `str` of what it reads, so
      `str` and `ReadIntText` are inverse bijections. */
  lemma ReadIntTextExact(t: string)
    requires ReadIntText(t).Some?
    ensures IntToString(ReadIntText(t).value) == t
  {
    if Canonical(t) {
      CanonicalDecimal(t);
    } else {
      var d := t[1..];
      assert d[0] != '0';
      LeadingDigitPositive(d);
      CanonicalDecimal(d);
      assert IntToString(-(DigitsValue(d) as int)) == "-" + d;
      assert t == "-" + d;
    }
  }

  /** Any two digits are the `f"{n:02d}"` form of their value. */
  lemma Pad2OfDigits(t: string)
    requires |t| == 2 && AllDigits(t)
    ensures DigitsValue(t) < 100 && Pad2(DigitsValue(t)) == t
  {
    var h := t[..1];
    assert h[..0] == [] && h[0] == t[0];
    assert DigitsValue(h) == DigitValue(t[0]);
    assert DigitsValue(t) == DigitValue(t[0]) * 10 + DigitValue(t[1]);
    assert DigitChar(DigitValue(t[0])) == t[0] && DigitChar(DigitValue(t[1])) == t[1];
  }
}

=== FILE: upstream.dfy ===
/** The video-hosting API client of the portfolio page: channel lookup,
    paginated search and playlist listings, and detail lookups in batches of
    at most fifty ids.

    The network is replaced by a script: the n-th request of an operation
    receives the n-th scripted response. `Answered(status, body)` is an HTTP
    response whose body, when the status is 200, is already decoded;
    `Raised` is an exception from the HTTP library or from decoding. A
    request for which the script has no response fails like `Raised`: the
    transport gave no answer. */
module Upstream {
  import opened Wrappers
  import opened Seqs

  datatype Response<B> = Answered(status: int, body: B) | Raised

  /** Success of an HTTP response, as the client tests it. */
  predicate IsOk<B>(r: Response<B>) {
    r.Answered? && r.status == 200
  }

  /** The response to request `n` of a script. */
  function ReplyTo<B>(script: seq<Response<B>>, n: nat): Response<B> {
    if n < |script| then script[n] else Raised
  }

  // ---------------------------------------------------------------------------
  // Resources of the API
  // ---------------------------------------------------------------------------

  /** A channel resource: snippet title and description, and the statistics
      counters, each possibly missing from the response. */
  datatype ApiChannel = ApiChannel(
    title: Option<string>,
    description: Option<string>,
    subscriberCount: Option<string>,
    videoCount: Option<string>,
    viewCount: Option<string>)

  /** A search result: the video id and the snippet fields the page uses. */
  datatype SearchResult = SearchResult(videoId: string, title: string, publishedAt: string)

  /** A playlist item: the id of the video it refers to and its snippet. */
  datatype PlaylistItem = PlaylistItem(videoId: string, title: string, publishedAt: string)

  /** A video resource from a detail lookup. `durationSeconds` is the parsed
      `contentDetails.duration` in whole seconds, `None` when the field is
      missing or does not parse; the counters are the raw statistics strings. */
  datatype VideoDetail = VideoDetail(
    id: string,
    durationSeconds: Option<int>,
    viewCount: Option<string>,
    likeCount: Option<string>)

  // ---------------------------------------------------------------------------
  // Channel lookup
  // ---------------------------------------------------------------------------

  /** `get_channel_info`: the first channel of a successful, non-empty
      response; nothing on an error status, an empty result or an exception. */
  function GetChannelInfo(reply: Response<seq<ApiChannel>>): (r: Option<ApiChannel>)
    ensures r.Some? <==> IsOk(reply) && reply.body != []
    ensures r.Some? ==> r.value == reply.body[0]
  {
    match reply
    case Answered(status, items) => if status == 200 && items != [] then Some(items[0]) else None
    case Raised => None
  }

  // ---------------------------------------------------------------------------
  // Pagination
  // ---------------------------------------------------------------------------

  /** One decoded page: its `items` (an absent field reads as empty) and its
      optional `nextPageToken`. */
  datatype Page<T> = Page(items: seq<T>, nextPageToken: Option<string>)

  /** How a pagination loop ends: returning the items it gathered, or
      leaving through its exception handler. */
  datatype Walk<T> = Finished(items: seq<T>) | Failed

  /** A page that sends the loop on to a further request. */
  predicate Continues<T>(r: Response<Page<T>>) {
    IsOk(r) && r.body.nextPageToken.Some?
  }

  function Prepend<T>(prefix: seq<T>, w: Walk<T>): Walk<T> {
    match w
    case Finished(rest) => Finished(prefix + rest)
    case Failed => Failed
  }

  /** The pagination loop from its first request on. */
  function Pages<T>(script: seq<Response<Page<T>>>): Walk<T>
    decreases |script|
  {
    if script == [] then Failed
    else
      match script[0]
      case Raised => Failed
      case Answered(status, page) =>
        if status != 200 then Finished([])
        else if page.nextPageToken.None? then Finished(page.items)
        else Prepend(page.items, Pages(script[1..]))
  }

  /** What `get_all_videos` and `get_playlist_videos` return: the gathered
      items, or the empty list when the exception handler ran. */
  function Paginate<T>(script: seq<Response<Page<T>>>): seq<T> {
    match Pages(script)
    case Finished(items) => items
    case Failed => []
  }

  /** The items of the answered pages of a script, in order. */
  function ItemsOf<T>(script: seq<Response<Page<T>>>): seq<T> {
    if script == [] then []
    else (if script[0].Answered? then script[0].body.items else []) + ItemsOf(script[1..])
  }

  /** The pagination loop of `get_all_videos` and `get_playlist_videos`:
      request a page, stop on a non-200 status, append the page's items,
      then follow `nextPageToken` or stop; an exception discards what was
      gathered. */
  method FetchAllPages<T>(script: seq<Response<Page<T>>>) returns (items: seq<T>)
    ensures items == Paginate(script)
  {
    items := [];
    var k := 0;
    while k < |script|
      invariant 0 <= k <= |script|
      invariant Pages(script) == Prepend(items, Pages(script[k..]))
      decreases |script| - k
    {
      PagesAt(script, k);
      match script[k]
      case Raised =>
        return [];
      case Answered(status, page) =>
        if status != 200 {
          assert items + [] == items;
          return;
        }
        PrependTwice(items, page.items, Pages(script[k + 1..]));
        items := items + page.items;
        if page.nextPageToken.None? {
          return;
        }
        k := k + 1;
    }
    return [];
  }

  /** One step of the pagination loop, at request `k`. */
  lemma PagesAt<T>(script: seq<Response<Page<T>>>, k: nat)
    requires k < |script|
    ensures script[k].Raised? ==> Pages(script[k..]) == Failed
    ensures script[k].Answered? && script[k].status != 200 ==> Pages(script[k..]) == Finished([])
    ensures IsOk(script[k]) && script[k].body.nextPageToken.None? ==>
      Pages(script[k..]) == Finished(script[k].body.items)
    ensures Continues(script[k]) ==>
      Pages(script[k..]) == Prepend(script[k].body.items, Pages(script[k + 1..]))
  {
    assert script[k..][0] == script[k] && script[k..][1..] == script[k + 1..];
  }

  lemma PrependTwice<T>(a: seq<T>, b: seq<T>, w: Walk<T>)
    ensures Prepend(a, Prepend(b, w)) == Prepend(a + b, w)
  {
  }

  /** The complete account of a pagination run. Let `k` be the first
      request whose response does not lead to a further request. Running
      out of script, or an exception, yields the empty list whatever was
      gathered; a non-200 status yields the items of the pages before it;
      a final page without `nextPageToken` yields the items of all pages
      up to and including it. */
  lemma {:induction false} PaginationOutcome<T>(script: seq<Response<Page<T>>>, k: nat)
    requires k <= |script|
    requires forall i :: 0 <= i < k ==> Continues(script[i])
    ensures k == |script| ==> Paginate(script) == []
    ensures k < |script| && script[k].Raised? ==> Paginate(script) == []
    ensures k < |script| && script[k].Answered? && script[k].status != 200 ==>
      Paginate(script) == ItemsOf(script[..k])
    ensures k < |script| && IsOk(script[k]) && script[k].body.nextPageToken.None? ==>
      Paginate(script) == ItemsOf(script[..k + 1])
  {
    PagesOutcome(script, k);
  }

  lemma {:induction false} PagesOutcome<T>(script: seq<Response<Page<T>>>, k: nat)
    requires k <= |script|
    requires forall i :: 0 <= i < k ==> Continues(script[i])
    ensures k == |script| ==> Pages(script) == Failed
    ensures k < |script| && script[k].Raised? ==> Pages(script) == Failed
    ensures k < |script| && script[k].Answered? && script[k].status != 200 ==>
      Pages(script) == Finished(ItemsOf(script[..k]))
    ensures k < |script| && IsOk(script[k]) && script[k].body.nextPageToken.None? ==>
      Pages(script) == Finished(ItemsOf(script[..k + 1]))
  {
    if k == 0 {
      if script != [] && script[0].Answered? {
        assert script[..1][0] == script[0] && script[..1][1..] == [];
      }
    } else {
      var tail := script[1..];
      PagesOutcome(tail, k - 1);
      assert script[..k][0] == script[0] && script[..k][1..] == tail[..k - 1];
      if k < |script| {
        assert script[..k + 1][0] == script[0] && script[..k + 1][1..] == tail[..k];
      }
    }
  }

  /** Three full pages of 50, 50 and 12 results, linked by page tokens,
      give all 112 results in order. */
  lemma ThreePages<T>(a: seq<T>, b: seq<T>, c: seq<T>, t1: string, t2: string)
    requires |a| == 50 && |b| == 50 && |c| == 12
    ensures var script := [Answered(200, Page(a, Some(t1))), Answered(200, Page(b, Some(t2))),
                           Answered(200, Page(c, None))];
            Paginate(script) == a + b + c && |Paginate(script)| == 112
  {
    var script := [Answered(200, Page(a, Some(t1))), Answered(200, Page(b, Some(t2))),
                   Answered(200, Page(c, None))];
    PaginationOutcome(script, 2);
    assert script[..3] == script;
    assert script[1..][1..][1..] == [];
    assert ItemsOf(script[1..][1..]) == c;
    assert ItemsOf(script[1..]) == b + c;
    assert ItemsOf(script) == a + (b + c);
  }

  // ---------------------------------------------------------------------------
  // Detail lookups in batches
  // ---------------------------------------------------------------------------

  /** The API accepts at most fifty ids per detail request. */
  const MaxIdsPerRequest: nat := 50

  /** The ids cut into consecutive batches of 50, the last one possibly shorter. */
  function Batches<T>(ids: seq<T>): (bs: seq<seq<T>>)
    ensures Flatten(bs) == ids
    ensures forall b :: 0 <= b < |bs| ==> 1 <= |bs[b]| <= MaxIdsPerRequest
    ensures forall b :: 0 <= b < |bs| - 1 ==> |bs[b]| == MaxIdsPerRequest
    decreases |ids|
  {
    if ids == [] then []
    else if |ids| <= MaxIdsPerRequest then
      assert Flatten([ids]) == ids + Flatten([ids][1..]);
      [ids]
    else
      var rest := Batches(ids[MaxIdsPerRequest..]);
      var bs := [ids[..MaxIdsPerRequest]] + rest;
      assert bs[1..] == rest;
      assert ids == ids[..MaxIdsPerRequest] + ids[MaxIdsPerRequest..];
      bs
  }

  /** One request per started group of fifty ids. */
  lemma {:induction false} BatchCount<T>(ids: seq<T>)
    ensures |Batches(ids)| == (|ids| + MaxIdsPerRequest - 1) / MaxIdsPerRequest
    decreases |ids|
  {
    if |ids| > MaxIdsPerRequest {
      BatchCount(ids[MaxIdsPerRequest..]);
    }
  }

  /** The items a detail response contributes: those of a 200 response,
      none for an error status or an exception. */
  function Contributed(r: Response<seq<VideoDetail>>): seq<VideoDetail> {
    if IsOk(r) then r.body else []
  }

  /** The items of the successful responses to the first `n` requests. */
  function ItemsOfBatches(replies: seq<Response<seq<VideoDetail>>>, n: nat): seq<VideoDetail> {
    if n == 0 then [] else ItemsOfBatches(replies, n - 1) + Contributed(ReplyTo(replies, n - 1))
  }

  /** Stores each item under its id, in order, a later item replacing an
      earlier one with the same id. */
  function Record(m: map<string, VideoDetail>, items: seq<VideoDetail>): map<string, VideoDetail> {
    if items == [] then m
    else
      var last := items[|items| - 1];
      Record(m, items[..|items| - 1])[last.id := last]
  }

  function IdsOf(items: seq<VideoDetail>): set<string> {
    set i | 0 <= i < |items| :: items[i].id
  }

  /** The last item with the given id, if any. */
  function LastWithId(items: seq<VideoDetail>, id: string): (r: Option<VideoDetail>)
    ensures r.Some? ==> r.value.id == id
  {
    if items == [] then None
    else if items[|items| - 1].id == id then Some(items[|items| - 1])
    else LastWithId(items[..|items| - 1], id)
  }

  /** An id has a last occurrence exactly when it occurs. */
  lemma {:induction false} LastWithIdFound(items: seq<VideoDetail>, id: string)
    ensures LastWithId(items, id).Some? <==> id in IdsOf(items)
  {
    if items != [] {
      var init := items[..|items| - 1];
      LastWithIdFound(init, id);
      if id in IdsOf(items) && items[|items| - 1].id != id {
        var i :| 0 <= i < |items| && items[i].id == id;
        assert init[i].id == id;
      }
      if id in IdsOf(init) {
        var i :| 0 <= i < |init| && init[i].id == id;
        assert items[i].id == id;
      }
    }
  }

  /** Recording a sequence of items adds exactly their ids, and each id ends
      up mapped to the last item carrying it; other entries are kept. */
  lemma {:induction false} RecordLastWins(m: map<string, VideoDetail>, items: seq<VideoDetail>)
    ensures Record(m, items).Keys == m.Keys + IdsOf(items)
    ensures forall id :: LastWithId(items, id).Some? ==>
      id in Record(m, items) && Record(m, items)[id] == LastWithId(items, id).value
    ensures forall id :: id in m && LastWithId(items, id).None? ==> Record(m, items)[id] == m[id]
  {
    if items != [] {
      var init := items[..|items| - 1];
      RecordLastWins(m, init);
      assert IdsOf(items) == IdsOf(init) + {items[|items| - 1].id} by {
        forall id | id in IdsOf(items) ensures id in IdsOf(init) + {items[|items| - 1].id} {
          var i :| 0 <= i < |items| && items[i].id == id;
          if i < |items| - 1 {
            assert init[i].id == id;
          }
        }
        forall id | id in IdsOf(init) ensures id in IdsOf(items) {
          var i :| 0 <= i < |init| && init[i].id == id;
          assert items[i].id == id;
        }
      }
    }
  }

  /** `get_video_details`: the details of every item of every successful
      batch reply, keyed by video id, a later item winning. */
  function VideoDetails(ids: seq<string>, replies: seq<Response<seq<VideoDetail>>>): map<string, VideoDetail> {
    Record(map[], ItemsOfBatches(replies, |Batches(ids)|))
  }

  /** Stores each item of one reply under its id, in reply order, so a
      later item replaces an earlier one with the same id. */
  method RecordItems(m: map<string, VideoDetail>, items: seq<VideoDetail>) returns (details: map<string, VideoDetail>)
    ensures details == Record(m, items)
  {
    details := m;
    var j := 0;
    while j < |items|
      invariant 0 <= j <= |items|
      invariant details == Record(m, items[..j])
    {
      assert items[..j + 1][..j] == items[..j];
      details := details[items[j].id := items[j]];
      j := j + 1;
    }
    assert items[..j] == items;
  }

  lemma {:induction false} RecordAppend(m: map<string, VideoDetail>, a: seq<VideoDetail>, b: seq<VideoDetail>)
    ensures Record(m, a + b) == Record(Record(m, a), b)
  {
    if b == [] {
      assert a + b == a;
    } else {
      var b' := b[..|b| - 1];
      RecordAppend(m, a, b');
      assert (a + b)[..|a + b| - 1] == a + b';
    }
  }

  /** The first batch of the ids from offset `i` on, and the rest. */
  lemma BatchesFrom(ids: seq<string>, i: nat, n: nat)
    requires i < |ids|
    requires n == if |ids| - i < MaxIdsPerRequest then |ids| - i else MaxIdsPerRequest
    ensures Batches(ids[i..]) == [ids[i..i + n]] + Batches(ids[i + n..])
  {
    var r := ids[i..];
    if |r| > MaxIdsPerRequest {
      assert ids[i..i + n] == r[..MaxIdsPerRequest] && r[MaxIdsPerRequest..] == ids[i + n..];
    } else {
      assert ids[i..i + n] == r && ids[i + n..] == [];
    }
  }

  /** The batch loop of `get_video_details`: one request per batch of ids,
      a failed batch skipped, every item of a successful reply stored by
      its id. It reports the id batches it requested alongside the map. */
  method GetVideoDetails(ids: seq<string>, replies: seq<Response<seq<VideoDetail>>>)
    returns (details: map<string, VideoDetail>, requested: seq<seq<string>>)
    ensures requested == Batches(ids) && Flatten(requested) == ids
    ensures ids == [] ==> requested == [] && details == map[]
    ensures details == VideoDetails(ids, replies)
  {
    details := map[];
    requested := [];
    var i := 0;
    while i < |ids|
      invariant 0 <= i <= |ids|
      invariant requested + Batches(ids[i..]) == Batches(ids)
      invariant details == Record(map[], ItemsOfBatches(replies, |requested|))
      decreases |ids| - i
    {
      var n := if |ids| - i < MaxIdsPerRequest then |ids| - i else MaxIdsPerRequest;
      var batch := ids[i..i + n];
      BatchesFrom(ids, i, n);
      var reply := ReplyTo(replies, |requested|);
      ghost var before := ItemsOfBatches(replies, |requested|);
      assert ItemsOfBatches(replies, |requested| + 1) == before + Contributed(reply);
      RecordAppend(map[], before, Contributed(reply));
      if IsOk(reply) {
        details := RecordItems(details, reply.body);
      } else {
        assert Contributed(reply) == [];
      }
      requested := requested + [batch];
      i := i + n;
    }
    assert ids[i..] == [] && requested + [] == requested;
  }

  /** The detail map holds exactly the ids of the items in successful batch
      responses, each mapped to the last such item: a failed batch adds
      nothing and does not stop the later ones, and a later item overwrites
      an earlier one with the same id. */
  lemma DetailsFromSuccessfulBatches(ids: seq<string>, replies: seq<Response<seq<VideoDetail>>>)
    ensures var items := ItemsOfBatches(replies, |Batches(ids)|);
            && VideoDetails(ids, replies).Keys == IdsOf(items)
            && forall id :: id in VideoDetails(ids, replies) ==>
                 LastWithId(items, id) == Some(VideoDetails(ids, replies)[id])
  {
    var items := ItemsOfBatches(replies, |Batches(ids)|);
    RecordLastWins(map[], items);
    forall id | id in VideoDetails(ids, replies)
      ensures LastWithId(items, id) == Some(VideoDetails(ids, replies)[id])
    {
      LastWithIdFound(items, id);
    }
  }

  /** A batch whose request failed contributes nothing: replacing its reply
      by an exception leaves the whole map unchanged. */
  lemma {:induction false} FailedBatchIsSkipped(replies: seq<Response<seq<VideoDetail>>>, b: nat, n: nat)
    requires b < |replies| && !IsOk(replies[b])
    ensures ItemsOfBatches(replies[b := Raised], n) == ItemsOfBatches(replies, n)
  {
    if n > 0 {
      FailedBatchIsSkipped(replies, b, n - 1);
    }
  }

  /** Every item of a successful batch response, whatever happened to the
      batches before it, has its id in the detail map. */
  lemma {:induction false} SuccessfulBatchIsRecorded(ids: seq<string>, replies: seq<Response<seq<VideoDetail>>>, b: nat)
    requires b < |Batches(ids)| && IsOk(ReplyTo(replies, b))
    ensures IdsOf(ReplyTo(replies, b).body) <= VideoDetails(ids, replies).Keys
  {
    DetailsFromSuccessfulBatches(ids, replies);
    var items := ReplyTo(replies, b).body;
    forall id | id in IdsOf(items) ensures id in IdsOf(ItemsOfBatches(replies, |Batches(ids)|)) {
      var i :| 0 <= i < |items| && items[i].id == id;
      BatchItemsIncluded(replies, b, |Batches(ids)|, i);
    }
  }

  lemma {:induction false} BatchItemsIncluded(replies: seq<Response<seq<VideoDetail>>>, b: nat, n: nat, i: nat)
    requires b < n && IsOk(ReplyTo(replies, b)) && i < |ReplyTo(replies, b).body|
    ensures ReplyTo(replies, b).body[i].id in IdsOf(ItemsOfBatches(replies, n))
  {
    var all := ItemsOfBatches(replies, n);
    var prev := ItemsOfBatches(replies, n - 1);
    if b == n - 1 {
      assert all[|prev| + i] == ReplyTo(replies, b).body[i];
    } else {
      BatchItemsIncluded(replies, b, n - 1, i);
      var j :| 0 <= j < |prev| && prev[j].id == ReplyTo(replies, b).body[i].id;
      assert all[j] == prev[j];
    }
  }
}

=== FILE: wrappers.dfy ===
/** The optional-value datatype the rest of the model uses for Python's
    `None`-or-value results and for lookups that may miss. */
module Wrappers {

  datatype Option<+T> = None | Some(value: T) {

    /** The wrapped value, or `default` when there is none (Python's `x or default`,
        `d.get(k, default)`). */
    function GetOr(default: T): T {
      match this
      case Some(v) => v
      case None => default
    }
  }
}
